=== FILE: README.md ===
# move_layer: windowed prefetch and playback, modelled in Dafny

The QGIS plugin `move_layer` animates moving objects stored in a
MobilityDB database. It cuts the timeline into windows ("time deltas") of
`time_delta_size` frames. It keeps three windows in memory: previous,
current and next. At every frame tick of the QGIS temporal controller it
either shows the frame's column of the current window, or crosses a window
boundary. A crossing shifts the buffers, asks a background task for the
next window, and pauses playback while tasks are still running. Each
window arrives as a matrix with one row per object and one column per
frame. The cells are geometries, and an empty point stands for "no
position".

The project models these parts:

- `Playback` holds the window state machine of the layer handler as pure
  functions: `Tick` (one `on_new_frame`), `Fetch`, `Render`, `Shift`,
  `Initiate`, `Install`, `FrameRate`. The lemmas about them cover window
  keys, buffer slots, fetch requests, pauses and runs of ticks.
- `Handler` is the `MoveLayerHandler` class. It keeps the fields the
  window logic reads and writes: window size, frame count, timestamps,
  key, end, previous frame, direction, `changed_key` and the three
  matrices. The layer extent, database handle, SRID, object count, id
  list, timestamp labels and `last_recorded_time` are left out, and a
  `log` of outside calls is added. Each method is proved to leave exactly the state and requests
  that the `Playback` function for it prescribes. Calls into the temporal
  controller and the task manager are appended to `log`: pauses, added
  fetch tasks, frame-rate changes and feature updates.
- `Timeline` covers the frame count and the timestamp list built by
  `generate_timestamps`, and the time span of a window.
- `WindowRows` lays one database row (first and last sample frame, and
  the samples) onto the columns of a window.
- `Worker` models `worker_fnc`: a `rows x size` array filled in place,
  status 0 or 1.
- `Spawned` models `create_matrix`: fill until the first row that does
  not fit, delete the visited rows without trajectory, and put three items
  on the result queue.
- `Granularity` models `Time_granularity` and `set_time_step`, and the
  seconds-per-sample rule of the two fetch processes.
- `Tasks` models the QGIS tasks of `move_task.py`. Each task's `run`
  stores a result or an error message and returns a flag. Its `finished`
  then makes exactly one callback.

Timestamps and durations are whole seconds. Geometries are opaque
tokens. What the database, the clock and the task manager return is
passed in as a parameter. A Python exception that escapes is modelled as a
`raised` flag, or as a failure value.

## Behaviour of the code worth knowing

The model does what the code does, apart from what "## Left out" lists.
In particular, the code reads `self.create_matrix`, which the handler
never defines (see "## Findings").
Some other behaviour is easy to miss when reading the code:

- **Frame count.** `generate_timestamps` names `raw % size` the
  "remainder frames" and adds it to the raw count, which reads as padding
  to a multiple of the window size. The sum is a multiple of `size` only
  when `2 * (raw % size)` is a multiple of `size`
  (`Timeline.TotalFramesAlignedIff`). Five raw frames with windows of four
  give six frames (`Timeline.FiveFramesPadToSix`).
- **Backward crossings.** On a backward crossing `on_new_frame` calls
  the same `shift_matrices` as on a forward one: next becomes current and
  current becomes previous. So a forward crossing followed by a backward
  one leaves no current window (`Playback.ForwardThenBackwardLosesCurrent`).
- **The tick at frame 0.** A tick at frame 0 coming from frame 0 takes
  the forward crossing branch. It shifts the buffers and asks again for
  the window at key `size` (`Playback.TickAtStartRefetches`). The
  ten-frame scenario therefore starts at tick 1 (`Playback.TenFrameScenario`).
- **The fetch guard.** The guard of `fetch_next_data` lets through a
  window ending at the frame count, one past the last frame. The worker's
  span lookup then fails (`Timeline.QuerySpanPastEnd`). With windows of
  one frame, the task label `timestamps_strings[key]` raises
  (`Playback.FetchRaisesOnlyPastLastFrame`).
- **Frames before the key.** `update_vlayer_features` indexes the current
  matrix with `previous_frame - key`, which is negative for a frame
  before the key. numpy then counts from the end of the window, so a
  backward seek shows another frame's geometries. With windows of ten and
  key 10, a seek to frame 3 shows frame 13 (`Playback.RenderShowsColumn`,
  `Playback.SeekBeforeKeyShowsLaterFrame`).
- **A step back after a forward crossing.** A step back inside the old
  window right after a forward crossing moves the key back (lines
  246-250) but does not undo the shift made at line 218. From key 10 at
  frame 19, ticks at 20 and then 19 leave key 10 with the old next window
  current, so frame 19 shows frame 29's geometries
  (`Playback.StepBackAfterCrossingKeepsShift`).
- **Installing a window.** `set_matrix` writes into the next slot with no
  range check, whatever window the task fetched (`Playback.InstalledWindowBecomesCurrent`).
- **Row sets.** `create_matrix` deletes visited rows without trajectory.
  It stops at the first row that does not fit and still reports success.
  `worker_fnc` keeps every row, and any row that does not fit fails it
  (`Spawned.SpawnedDropsEmptyRows`, `Worker.WorkerFnc`).

## Model

| member | source | states |
|---|---|---|
| Common.PyIndex | move_layer/move_layer_handler.py:263 | a Python index into n items is valid exactly for -n <= j < n, and names the item congruent to j modulo n |
| Common.ColumnAt | move_layer/move_layer_handler.py:263 | `matrix[:, j]` exists exactly when j is a valid Python index into the width, and then holds cell j of every row, in row order |
| Granularity.StepRecords | move_layer/move_enum_classes.py:13-16 | both step counts become `steps`; SECOND's duration becomes `steps` seconds and MINUTE's `steps` minutes; names and units are kept |
| Granularity.StepRecordsIdempotent | move_layer/move_enum_classes.py:12-17 | calling `set_time_step` twice with the same count is the same as calling it once |
| Granularity.TimeGranularity.constructor | move_layer/move_enum_classes.py:7-8 | the members start at one step of one second and one step of one minute |
| Granularity.TimeGranularity.Value | move_layer/move_enum_classes.py:5-17 | a member's record is read from the shared enumeration, so every holder sees the last `set_time_step` |
| Granularity.TimeGranularity.SetTimeStep | move_layer/move_enum_classes.py:10-17 | rewrites both member records in place as `StepRecords` says, keeps the members consistent, and returns the class itself |
| Granularity.TimeValue | move_layer/move_worker_process.py:42-45 | defines the seconds per sample: `steps` for SECOND, `60 * steps` for MINUTE, unbound for any other name; stated by `TimeValueIsTimedelta` and `TimeValueUndefinedElsewhere` |
| Granularity.TimeValueIsTimedelta | move_layer/move_worker_process.py:42-45 | for either member, the seconds per sample equal the member's own frame duration: `steps` for SECOND, `60 * steps` for MINUTE |
| Granularity.TimeValueUndefinedElsewhere | move_layer/move_spawned_process.py:40-43 | the seconds-per-sample value is unbound exactly for a name other than SECOND and MINUTE |
| Timeline.RawFrames | move_layer/move_layer_handler.py:134 | defines the raw frame count: the floor of the span over the frame duration, plus one; its range is stated by `TimelineCoversRange` |
| Timeline.TotalFrames | move_layer/move_layer_handler.py:134-136 | defines the frame count: the raw count plus `raw % size`; when that is a multiple of the window size is stated by `TotalFramesAlignedIff` |
| Timeline.TaskTimeSpan | move_layer/move_task.py:48-49 | defines the time span a fetch task asks for, `start + timedelta * frame` at both ends; its order is stated by `TaskTimeSpanOrdered` and its agreement with the worker's lookup by `QuerySpanOnTimeline` |
| Timeline.Timestamps | move_layer/move_layer_handler.py:138 | one timestamp per frame, frame i at `start + i * timedelta`; none for a non-positive count |
| Timeline.TaskTimeSpanOrdered | move_layer/move_task.py:48-49 | the span asked for runs forward exactly when the frame range does |
| Timeline.TimestampsIncreasing | move_layer/move_layer_handler.py:138 | the timestamps strictly increase |
| Timeline.TimelineCoversRange | move_layer/move_layer_handler.py:134-138 | the timeline starts at the first instant; its last raw frame is the last frame-aligned instant not after the last one; padding adds fewer than `size` frames |
| Timeline.TotalFramesAlignedIff | move_layer/move_layer_handler.py:134-136 | the frame count is a multiple of the window size exactly when twice the raw remainder is |
| Timeline.FiveFramesPadToSix | move_layer/move_layer_handler.py:134-136 | five raw frames with windows of four give six frames, not a multiple of four |
| Timeline.QuerySpan | move_layer/move_worker_process.py:34-35 | the span lookup succeeds exactly when both frame indices are valid Python indices |
| Timeline.QuerySpanOnTimeline | move_layer/move_worker_process.py:34-35 | on the generated timeline the worker's span is the task's time span for every in-range window |
| Timeline.QuerySpanPastEnd | move_layer/move_layer_handler.py:185 | a window ending at the frame count, which the fetch guard admits, cannot be looked up |
| WindowRows.SentinelRow | move_layer/move_worker_process.py:83 | `np.full` gives `size` empty points |
| WindowRows.PlaceSamples | move_layer/move_worker_process.py:94 | the slice assignment writes the samples over their columns and leaves every other cell alone |
| WindowRows.WindowRow | move_layer/move_worker_process.py:86-94 | a row without trajectory is all empty points; otherwise column j holds the sample for frame `begin + j` inside the sample range, and the empty point outside it |
| WindowRows.SampleAtItsFrame | move_layer/move_worker_process.py:91-94 | sample k of a fitting row lands in the column of its own frame `start + k` |
| WindowRows.FillSlice | move_layer/move_worker_process.py:94 | the in-place slice assignment makes row i its window row and leaves all other rows unchanged |
| Worker.QuoteId | move_layer/move_worker_process.py:30 | defines one id in single quotes; used by `IdsString` |
| Worker.IdsString | move_layer/move_worker_process.py:30-31 | defines the quoted ids joined by `, `; its structure and length are stated by `IdsStringAppend` and `IdsStringLength` |
| Worker.IdsStringAppend | move_layer/move_worker_process.py:30-31 | the id string of two lists is their id strings joined by ", ", so every id appears once, in order |
| Worker.IdsStringLength | move_layer/move_worker_process.py:30-31 | the id string has exactly two quotes per id and two separator characters between ids |
| Worker.WorkerFnc | move_layer/move_worker_process.py:7-103 | status is 0 or 1; status 0 exactly when the span lookup, the connection, the granularity and the query succeed and every row fits, and then the matrix has one row per query row with the window rows; status 1 comes with no matrix |
| Worker.WorkerRowCases | move_layer/move_worker_process.py:86-96 | a row without trajectory stays all empty points; a row whose slice does not fit makes the worker fail |
| Spawned.SpawnedRows | move_layer/move_spawned_process.py:86-102 | defines the rows `create_matrix` leaves, row by row: a window row while rows fit, nothing for a visited row without trajectory, an empty row from the first misfit on; tied to the loop by `KeptIsSpawned` and to the worker by `SpawnedAgreesWithWorker` |
| Spawned.FilledRow | move_layer/move_spawned_process.py:82-98 | defines row i of the matrix after the fill loop: its window row before the break, the `np.full` row of empty points from the break on; proved equal to the loop's result by `FillUntilBreak` |
| Spawned.Removed | move_layer/move_spawned_process.py:85-100 | defines the indices the loop collects: visited rows without trajectory, in order; characterised by `RemovedMembers` |
| Spawned.Kept | move_layer/move_spawned_process.py:102 | defines the rows `np.delete` keeps: every row whose index is not collected, in order; proved equal to `SpawnedRows` by `KeptIsSpawned` and its length by `KeptLength` |
| Spawned.StopIndex | move_layer/move_spawned_process.py:86-98 | the fill loop breaks at the first row that does not fit, and every earlier row fits |
| Spawned.SpawnedRowsSnoc | move_layer/move_spawned_process.py:86-102 | the row-by-row reference of the final matrix extends one row at a time |
| Spawned.StoppedAfterPrefix | move_layer/move_spawned_process.py:96-98 | the loop has broken after n rows exactly when the break row is among them |
| Spawned.RemovedMembers | move_layer/move_spawned_process.py:85-100 | a row index is to be removed exactly when the loop visited it and found no trajectory |
| Spawned.KeptIsSpawned | move_layer/move_spawned_process.py:102 | fill-then-delete agrees with the row-by-row reference on every prefix |
| Spawned.KeptRowIsContribution | move_layer/move_spawned_process.py:86-102 | each row contributes the same to fill-then-delete as to the row-by-row reference: its window row if visited with a trajectory, nothing if visited without, all empty points from the break on |
| Spawned.KeptCountBeforeBreak | move_layer/move_spawned_process.py:99-100 | up to the break, the rows that survive the deletion are the visited rows with a trajectory |
| Spawned.KeptCountAfterBreak | move_layer/move_spawned_process.py:96-102 | from the break on no row is listed for deletion, so every later row survives |
| Spawned.KeptLength | move_layer/move_spawned_process.py:102 | the deleted matrix has the input row count less the number of collected indices |
| Spawned.BreakLeavesRest | move_layer/move_spawned_process.py:96-100 | rows from the break on stay empty and are never removed; earlier rows are removed exactly when they have no trajectory |
| Spawned.SpawnedAgreesWithWorker | move_layer/move_spawned_process.py:86-102 | when every row has a fitting trajectory, the spawned matrix is the worker's matrix |
| Spawned.SpawnedDropsEmptyRows | move_layer/move_spawned_process.py:99-102 | a visited row without trajectory makes the spawned matrix shorter than the query result |
| Spawned.FillUntilBreak | move_layer/move_spawned_process.py:85-100 | the in-place fill leaves every row before the break as its window row and every later row all empty points, and collects exactly the visited rows without trajectory, in order |
| Spawned.DeleteRows | move_layer/move_spawned_process.py:102 | `np.delete` keeps the unlisted rows of the filled matrix in their order, each `size` wide |
| Spawned.BuildMatrix | move_layer/move_spawned_process.py:81-102 | the array is filled in place until the break and the collected rows are deleted; the result equals the row-by-row reference, `size` columns wide, with the query's row count less the removed rows |
| Spawned.PreparationFailure | move_layer/move_spawned_process.py:19-75 | defines the first failure before the fill, in the code's order: span lookup, connection, unbound seconds per sample, query; its effect on the status is stated by `Outcome` |
| Spawned.Outcome | move_layer/move_spawned_process.py:108-115 | exactly three items: status 0, the matrix and the log on success; status 1, the first failure and the log otherwise |
| Spawned.CreateMatrix | move_layer/move_spawned_process.py:14-115 | appends exactly the three outcome items to the queue |
| Spawned.ResultQueue.constructor | move_layer/move_spawned_process.py:14 | the result queue `create_matrix` is handed starts empty |
| Spawned.ResultQueue.Put | move_layer/move_spawned_process.py:108 | a put appends one item |
| Tasks.DeltaRun | move_layer/move_task.py:43-59 | run returns true exactly when the fetch returned; the rows are stored then, and `str(e)` is stored otherwise |
| Tasks.DeltaDispatch | move_layer/move_task.py:36-40 | defines which callback `finished` makes and with what; stated by `FreshDeltaRunDispatch` and `NextTimeDeltaTask.Finished` |
| Tasks.FreshDeltaRunDispatch | move_layer/move_task.py:36-59 | from a fresh task, run then finished calls the success callback with the fetched rows or the failure callback with the error text, never with a missing argument |
| Tasks.NextTimeDeltaTask.constructor | move_layer/move_task.py:15-33 | keeps the start date, the shared granularity member itself (not a copy of its record) and the frame range, with no result and no error message yet |
| Tasks.NextTimeDeltaTask.Run | move_layer/move_task.py:43-59 | asks for the span `start + timedelta * begin` to `start + timedelta * end`, with the member's frame duration as it stands when the task runs, and updates the fields as `DeltaRun` says |
| Tasks.StepChangeBeforeRun | move_layer/move_task.py:48-49 | a `set_time_step` made after the task is built reaches its `run`: the span uses the new step count |
| Tasks.NextTimeDeltaTask.Finished | move_layer/move_task.py:36-40 | exactly one callback, the success one exactly when the flag is set |
| Tasks.GeomRun | move_layer/move_task.py:90-106 | success stores the four view results; database and value errors store their text and return false; any other exception escapes |
| Tasks.TemporalRun | move_layer/move_task.py:116-131 | success stores type, id column, view name and SRID; only database errors are caught, storing their primary message as it is, `None` included; any other exception escapes |
| Tasks.ValueErrorHandledOnlyByGeomTask | move_layer/move_task.py:103-105 | a value error is caught by the geometry task and escapes the temporal one |
| Tasks.OnlyTemporalFailureCanLackMessage | move_layer/move_task.py:99-105 | a failed geometry run always leaves a message; a temporal run that caught a database error without a primary message hands `None` to the failure callback |
| Tasks.MoveTask.Geom | move_layer/move_task.py:66-75 | a `MoveGeomTask` keeps its query and database handle, with no result and no error message yet |
| Tasks.MoveTask.Temporal | move_layer/move_task.py:109-114 | a `MoveTTask` also keeps its id column, with no result and no error message yet |
| Tasks.MoveTask.Finished | move_layer/move_task.py:77-81 | on success calls back with the database, the query and the result; otherwise with the message |
| Tasks.MoveTask.RunGeom | move_layer/move_task.py:90-106 | updates the fields and returns as `GeomRun` says |
| Tasks.MoveTask.RunTemporal | move_layer/move_task.py:116-131 | updates the fields and returns as `TemporalRun` says |
| Playback.Shift | move_layer/move_layer_handler.py:161-164 | defines `shift_matrices`: next becomes current, current becomes previous, next is emptied; used by `ForwardCrossing` and `BackwardCrossing` |
| Playback.FetchAllowed | move_layer/move_layer_handler.py:185 | defines the guard of `fetch_next_data`: the window starts at 0 or later and ends no later than the frame count; stated by `FetchExactlyOne` and `QuerySpanPastEnd` |
| Playback.Fetch | move_layer/move_layer_handler.py:174-190 | defines `fetch_next_data` with the imported `create_matrix` as the worker: guard, label lookup, one task; stated by `FetchExactlyOne` |
| Playback.FetchAsWritten | move_layer/move_layer_handler.py:185-190 | defines `fetch_next_data` as the code stands: whenever the guard holds it raises, on the label or on the undefined `self.create_matrix`, and adds no task |
| Playback.FetchAsWrittenNeverRequests | move_layer/move_layer_handler.py:185-190 | wherever `Fetch` adds a task, the code as it stands raises and requests nothing |
| Playback.SecondWindowFetchRaisesAsWritten | move_layer/move_layer_handler.py:121-123 | with windows of ten over a hundred frames, the second-window fetch of `initiate_animation` raises as the code stands |
| Playback.FrameColumn | move_layer/move_layer_handler.py:258-265 | defines the shown column: index `previous_frame - key` of the current matrix under numpy's rule, none when the matrix is missing or the index out of range; stated by `RenderShowsColumn` |
| Playback.Render | move_layer/move_layer_handler.py:255-280 | defines `update_vlayer_features`: one feature update with the column, or nothing when reading it fails; stated by `RenderShowsColumn` and `RenderQuiet` |
| Playback.EdgePause | move_layer/move_layer_handler.py:200-207 | defines the pause at either end of the animation; stated by `TickEdgePause` and `MoveHasNoEdgePause` |
| Playback.Recorded | move_layer/move_layer_handler.py:199-209 | defines the state after a tick records its frame: forward unless the frame went back; stated by `TickDirection` |
| Playback.Entered | move_layer/move_layer_handler.py:215-218 | defines the state after a crossing moves the window: the new key and end, then `shift_matrices`; the backward crossing at lines 232-236 uses it too; stated by `ForwardCrossing` and `BackwardCrossing` |
| Playback.PendingPause | move_layer/move_layer_handler.py:222-223 | defines the pause after a crossing while tasks are active, as at lines 240-241 too; stated by `ForwardCrossing` and `BackwardCrossing` |
| Playback.Realigned | move_layer/move_layer_handler.py:246-250 | defines the key correction off a boundary: right after a key change, a frame before the key moves the window back by one; stated by `NonBoundaryTick` |
| Playback.Move | move_layer/move_layer_handler.py:211-252 | defines the part of `on_new_frame` after the frame is recorded: forward crossing, backward crossing, or a step inside the window; stated by `ForwardCrossing`, `BackwardCrossing`, `NonBoundaryTick` |
| Playback.Tick | move_layer/move_layer_handler.py:194-252 | defines one `on_new_frame`: edge pause, record the frame, then `Move`; stated by `TickDirection`, `TickEdgePause`, `ForwardEvents`, `BackwardEvents`, `TickKeepsKeyAligned` |
| Playback.FrameRate | move_layer/move_layer_handler.py:297-299 | defines the rate `set_frame_rate` picks: the lesser of `size / elapsed` and the handler's rate; stated by `FrameRateKeepsUp` |
| Playback.RateEvents | move_layer/move_layer_handler.py:297-300 | defines `set_frame_rate`: a division by a zero elapsed time raises, otherwise one frame-rate change |
| Playback.Initiate | move_layer/move_layer_handler.py:112-124 | defines `initiate_animation`: install as current, set the rate, fetch the second window, show the frame; stated by `InitiateRequestsSecondWindow` |
| Playback.Install | move_layer/move_layer_handler.py:303-313 | defines `set_matrix`: install as next, then set the rate; stated by `InstalledWindowBecomesCurrent` |
| Playback.Start | move_layer/move_layer_handler.py:57-66 | defines the state the handler starts in; used by `MoveLayerHandler.constructor` |
| Playback.Run | move_layer/move_layer_handler.py:194-252 | defines a run of ticks; a tick that raises ends only itself and the next starts from the state it left; stated by `RunKeepsKeyAligned` and `InsideWindowRun` |
| Playback.RequestsAppend | move_layer/move_layer_handler.py:188-190 | the tasks added by two event sequences are those of each, in order |
| Playback.FetchExactlyOne | move_layer/move_layer_handler.py:174-190 | `fetch_next_data(k)` adds exactly one task for `[k, k+size-1]` with the `set_matrix` callback when the guard holds and the label exists, raises exactly when the guard holds and the label does not, and does nothing otherwise |
| Playback.FetchRaisesOnlyPastLastFrame | move_layer/move_layer_handler.py:185-188 | on a timeline as long as the frame count, the fetch raises only for key = frame count with windows of one frame |
| Playback.RenderQuiet | move_layer/move_layer_handler.py:255-280 | showing a frame neither adds a task nor pauses |
| Playback.FetchPieces | move_layer/move_layer_handler.py:174-190 | `fetch_next_data` never pauses; it adds the one task for `[key, key+size-1]` with the `set_matrix` callback when the guard holds and the label exists, and no task otherwise |
| Playback.TickDirection | move_layer/move_layer_handler.py:200-209 | every tick records its frame; the direction is forward exactly when the frame did not go back |
| Playback.MoveHasNoEdgePause | move_layer/move_layer_handler.py:211-252 | the window move never asks to stop at either end |
| Playback.TickEdgePause | move_layer/move_layer_handler.py:200-207 | a pause at the end exactly when moving forward at or past the frame count, one at the start exactly when moving backward at or before frame 0, and before any other request |
| Playback.ForwardEvents | move_layer/move_layer_handler.py:200-225 | a forward crossing off the last window requests, in order: the edge pause, the fetch, and, unless the fetch raised, the pending-task pause and the shown frame of the new window |
| Playback.ForwardCrossing | move_layer/move_layer_handler.py:211-225 | off the last window, a forward boundary tick makes the frame the key, shifts the slots, asks for the window after it and, unless that raised, pauses exactly when tasks are active and marks the key changed |
| Playback.ForwardCrossingAtLastWindow | move_layer/move_layer_handler.py:214 | on the last window a forward boundary tick moves nothing and asks for nothing |
| Playback.BackwardEvents | move_layer/move_layer_handler.py:200-243 | a backward crossing off key 0 requests, in order: the edge pause, the frame shown from the old window, the fetch, and, unless the fetch raised, the pending-task pause |
| Playback.BackwardCrossing | move_layer/move_layer_handler.py:228-243 | off key 0, a backward boundary tick moves the key back one window, ends it before the frame, shifts the slots, asks for the window before the new key and, unless that raised, pauses exactly when tasks are active |
| Playback.BackwardCrossingAtFirstWindow | move_layer/move_layer_handler.py:231 | at key 0 a backward boundary tick moves nothing and asks for nothing |
| Playback.NonBoundaryTick | move_layer/move_layer_handler.py:245-252 | a tick off the boundaries asks for nothing, clears the key-change mark and moves the key back one window only right after a key change with the frame before the key |
| Playback.TickKeepsKeyAligned | move_layer/move_layer_handler.py:211-250 | with non-negative frames, every tick keeps the key a non-negative multiple of the window size |
| Playback.RunKeepsKeyAligned | move_layer/move_layer_handler.py:194-252 | the key stays aligned along any run of non-negative ticks |
| Playback.InsideWindowRun | move_layer/move_layer_handler.py:245-252 | ticks inside the current window keep key, end and slots and ask for nothing |
| Playback.ForwardThenBackwardLosesCurrent | move_layer/move_layer_handler.py:218-236 | a forward then a backward crossing leaves the old next window as previous and no current window |
| Playback.StepBackAfterCrossingKeepsShift | move_layer/move_layer_handler.py:211-252 | a step back inside the old window right after a forward crossing moves the key back but keeps the shift, so the frame shows the last column of the window after it |
| Playback.SeekBeforeKeyShowsLaterFrame | move_layer/move_layer_handler.py:245-265 | a seek to frame 3 with key 10 and windows of ten keeps the key and shows column 3, the geometries of frame 13 |
| Playback.TenFrameScenario | move_layer/move_layer_handler.py:211-252 | with windows of ten over a hundred frames, ticks 1 to 9 ask for nothing and tick 10 shifts and asks for exactly `[20, 29]` |
| Playback.TickAtStartRefetches | move_layer/move_layer_handler.py:200-219 | a tick at frame 0 from frame 0 shifts and asks again for the window at key `size` |
| Playback.InitiateRequestsSecondWindow | move_layer/move_layer_handler.py:112-124 | the first window becomes current and exactly the window at key `size` is asked for, with the `set_matrix` callback |
| Playback.FrameRateKeepsUp | move_layer/move_layer_handler.py:297-300 | the new frame rate never exceeds the handler's, and at that rate a window lasts at least as long as its fetch took |
| Playback.InstalledWindowBecomesCurrent | move_layer/move_layer_handler.py:303-309 | a window installed by `set_matrix` becomes current at the next forward crossing |
| Playback.RenderShowsColumn | move_layer/move_layer_handler.py:255-280 | with a current window and an index inside it, the shown geometries are column `frame - key`, one per object; with an index from `-width` to -1, numpy counts from the end and column `width + frame - key` is shown; with no current window or any other index nothing is shown |
| Handler.MoveLayerHandler.constructor | move_layer/move_layer_handler.py:32-84 | builds the frame count and timestamps from the data range, starts at the caller's key and frame with empty slots, and asks for the first window with the `initiate_animation` callback |
| Handler.MoveLayerHandler.ShiftMatrices | move_layer/move_layer_handler.py:161-164 | previous takes current, current takes next, next is emptied |
| Handler.MoveLayerHandler.FetchNextData | move_layer/move_layer_handler.py:174-190 | adds the task, raises or does nothing, as `Fetch` prescribes, and changes no state |
| Handler.MoveLayerHandler.Pause | move_layer/move_layer_handler.py:203 | asking the temporal controller to pause changes no state and appends exactly one pause request to the log |
| Handler.MoveLayerHandler.UpdateVlayerFeatures | move_layer/move_layer_handler.py:255-280 | shows the current frame's column as `Render` prescribes; failures are swallowed |
| Handler.MoveLayerHandler.OnNewFrame | move_layer/move_layer_handler.py:194-252 | the new state, the requests in order and the escape of an exception are those of `Tick`; an aligned key stays aligned |
| Handler.MoveLayerHandler.RecordFrame | move_layer/move_layer_handler.py:199-209 | sets direction and previous frame and requests the edge pause |
| Handler.MoveLayerHandler.CrossForward | move_layer/move_layer_handler.py:211-225 | the forward boundary branch, as `Move` prescribes |
| Handler.MoveLayerHandler.CrossBackward | move_layer/move_layer_handler.py:228-243 | the backward boundary branch, as `Move` prescribes |
| Handler.MoveLayerHandler.StepInside | move_layer/move_layer_handler.py:245-252 | the non-boundary branch, as `Move` prescribes |
| Handler.MoveLayerHandler.SetFrameRate | move_layer/move_layer_handler.py:297-300 | sets the rate `min(size / elapsed, 100)`, or raises on a zero duration |
| Handler.MoveLayerHandler.InitiateAnimation | move_layer/move_layer_handler.py:112-124 | installs the first window, sets the rate, asks for the second window and shows the frame, as `Initiate` prescribes |
| Handler.MoveLayerHandler.SetMatrix | move_layer/move_layer_handler.py:303-309 | installs the window in the next slot and sets the rate, as `Install` prescribes |

## Findings

| source | as written | input that shows it | evidently intended | confidence | as-written member | corrected member |
|---|---|---|---|---|---|---|
| move_layer/move_layer_handler.py:188-190 | the fetch task is built with `self.create_matrix`, an attribute the handler never defines, so once the guard holds and the label exists the call raises AttributeError and adds no task | windows of 10 over 100 frames with 100 labels, key 10, the second-window fetch of `initiate_animation` (`Playback.SecondWindowFetchRaisesAsWritten`) | pass the module-level `create_matrix` imported at line 6, adding one task for `[key, key+size-1]` | high, not executed | Playback.FetchAsWrittenNeverRequests | Playback.FetchExactlyOne |

The same read of `self.create_matrix` is in `__init__` (lines 82-84), so
the first fetch task cannot be created either. The rest of the model uses
the corrected `Fetch`.

## Left out

- QGIS features, the vector layer's editing and commit, and
  `generate_qgis_features`: a shown frame is recorded as the list of
  geometries handed to the layer.
- `initiate_temporal_controller_values`, `clean_handler_memory`, the
  getters, `log` and `raise_error`: these only configure QGIS, release
  memory or write log messages.
- MoveLayerController is not part of this model. The handler's calls to
  its `pause` (lines 203, 207, 223, 241), `get_current_frame_number`
  (line 199) and `set_fps` (line 300) become log events and parameters.
  The controller in `move_layer/move_layer_controller.py` defines none of
  these three: it has `pause_animation` and `update_frame_rate` instead.
  The model assumes a controller that has the methods the handler calls,
  with the meaning their names give.
- `Matrix_generation_thread` is not part of this model. The task file
  does not define it. The fetch tasks the handler creates are recorded
  as requests with their frame range and callback.
- The database, the SQL query and its computed start and end indices:
  query results are inputs (`DbOutcome`, `Attempt`). Geometries and WKT
  or WKB encodings are opaque tokens.
- Clocks: fetch durations are passed in as `elapsed`. The start timestamp
  and the frame durations are whole seconds.
- `timestamps_strings` and `strftime`: only whether `timestamps_strings[key]`
  exists is modelled.
- Process machinery: CPU affinity, process ids, the multiprocessing
  queue's transport, and the content of the log and error items. A failure
  is recorded by its step.
- WindowRows.SliceFits: the slice assignment succeeds only when the
  sample range lies inside the window with one sample per column. numpy
  also accepts negative starts, clipped ends and broadcast single values.
  The model treats those as failures.
- Worker.IdsStringAppend: ids are the already-rendered first fields of the
  id tuples. `str` of other types is not modelled.
- Handler.MoveLayerHandler.constructor: requires a start key with a task
  label, and a positive frame duration. Where the source raises at
  construction, the model has no handler. A granularity whose steps were
  set to 0 by `set_time_step(0)` has a zero frame duration, so
  `generate_timestamps` raises ZeroDivisionError at line 134.
  It also records the first fetch task as added, taking the imported
  `create_matrix` as its worker. As written, `__init__` reads
  `self.create_matrix` at line 83, which the class does not define. So it
  raises AttributeError before adding the task (see "## Findings").
- Handler.MoveLayerHandler.FetchNextData: adds its task with the imported
  `create_matrix` as the worker, where the code as written raises on the
  undefined `self.create_matrix` (line 189). It follows `Playback.Fetch`.
- Playback.Fetch: models the corrected call. The code as it stands is
  `Playback.FetchAsWritten`, which raises whenever the guard holds.
- Playback.FetchExactlyOne: the task it promises exists only with the
  corrected worker. As written, the guarded call always raises
  (`Playback.FetchAsWrittenNeverRequests`).
- Playback.FetchPieces: the requests it states are those of the corrected
  `Fetch`. As written, no request is made.
- Playback.FetchRaisesOnlyPastLastFrame: "only past the last frame" holds
  for the corrected `Fetch`. As written, every guarded key raises.
- Playback.FrameRate: real division on exact reals. The source divides
  Python floats, so `(size / elapsed) * elapsed` can exceed `size` by
  one rounding step.
- Playback.FrameRateKeepsUp: holds of exact reals. With IEEE doubles the
  window's duration at the chosen rate can fall short of `elapsed` by one
  rounding step.
- The files under `move/` are not part of this model.
- Concurrency between ticks and task callbacks: each handler method runs
  to completion, and callbacks are separate method calls.

=== FILE: common.dfy ===
/** Values shared by the window engine: optional values, opaque point
    geometries with a distinguished empty point, window matrices, and
    Python's rule for normalising a possibly negative index. */
module Common {

  datatype Option<+T> = None | Some(value: T)

  /** A serialised point geometry (WKT or WKB in the plugin). Only the
      empty point is distinguished; every other point is an opaque token. */
  datatype Geom = EmptyPoint | Point(token: nat)

  /** A two-dimensional table of geometries: one row per moving object,
      `width` columns, one per frame of a window. */
  datatype Grid = Grid(width: nat, rows: seq<seq<Geom>>)

  /** Every row of the table has exactly `width` cells, as in a numpy array. */
  predicate Rectangular(g: Grid) {
    forall i :: 0 <= i < |g.rows| ==> |g.rows[i]| == g.width
  }

  /** A window matrix as numpy holds it: always rectangular. */
  type Matrix = g: Grid | Rectangular(g) witness Grid(0, [])

  /** The position that Python and numpy read for index `j` of a
      dimension of length `n`: negative indices count from the end,
      anything outside `-n .. n-1` raises. */
  function PyIndex(n: nat, j: int): (r: Option<nat>)
    ensures r.Some? <==> -(n as int) <= j < n
    ensures r.Some? ==> r.value < n
    ensures r.Some? ==> (r.value as int - j) % n == 0
  {
    if 0 <= j < n then Some(j)
    else if -(n as int) <= j < 0 then Some(n + j)
    else None
  }

  /** Column `j` of a rectangular table under numpy's indexing rule
      (`m[:, j]`), or None when numpy would raise. */
  function ColumnAt(g: Grid, j: int): (r: Option<seq<Geom>>)
    requires Rectangular(g)
    ensures r.Some? <==> -(g.width as int) <= j < g.width
    ensures r.Some? ==> |r.value| == |g.rows|
    ensures r.Some? ==> forall i :: 0 <= i < |g.rows| ==>
              r.value[i] == g.rows[i][PyIndex(g.width, j).value]
  {
    match PyIndex(g.width, j)
    case None => None
    case Some(k) => Some(seq(|g.rows|, i requires 0 <= i < |g.rows| => g.rows[i][k]))
  }
}

=== FILE: granularity.dfy ===
/** The time granularity enumeration: two members, SECOND and MINUTE, each
    carrying a mutable value record (timedelta, QGIS unit, name, steps)
    that `set_time_step` rewrites in place for both members at once.
    Durations are whole seconds. */
module Granularity {
  import opened Common

  datatype TemporalUnit = Seconds | Minutes

  /** The value record of one enumeration member. `timedelta` is the
      duration of one frame, in seconds. */
  datatype GranularityValue = GranularityValue(
    timedelta: int,
    qgsUnit: TemporalUnit,
    name: string,
    steps: int)

  const SecondName: string := "SECOND"
  const MinuteName: string := "MINUTE"

  /** The record of the SECOND member for a step count of `steps`. */
  predicate IsSecondRecord(v: GranularityValue, steps: int) {
    v == GranularityValue(steps, Seconds, SecondName, steps)
  }

  /** The record of the MINUTE member for a step count of `steps`. */
  predicate IsMinuteRecord(v: GranularityValue, steps: int) {
    v == GranularityValue(60 * steps, Minutes, MinuteName, steps)
  }

  /** The rewrite that `set_time_step(steps)` applies to the pair of
      member records: both step counts become `steps`, SECOND's duration
      becomes `steps` seconds and MINUTE's `steps` minutes; names and units
      are kept. */
  function StepRecords(second: GranularityValue, minute: GranularityValue, steps: int)
    : (r: (GranularityValue, GranularityValue))
    ensures r.0.steps == steps && r.1.steps == steps
    ensures r.0.timedelta == steps && r.1.timedelta == 60 * steps
    ensures r.0.name == second.name && r.0.qgsUnit == second.qgsUnit
    ensures r.1.name == minute.name && r.1.qgsUnit == minute.qgsUnit
  {
    (second.(timedelta := steps, steps := steps),
     minute.(timedelta := 60 * steps, steps := steps))
  }

  /** Rewriting twice with the same step count is the same as rewriting once. */
  lemma StepRecordsIdempotent(second: GranularityValue, minute: GranularityValue, steps: int)
    ensures var once := StepRecords(second, minute, steps);
            StepRecords(once.0, once.1, steps) == once
  {
  }

  /** Which member of the enumeration a caller holds. */
  datatype Member = SecondMember | MinuteMember

  /** The enumeration itself: the two members' shared, mutable records. */
  class TimeGranularity {
    var second: GranularityValue
    var minute: GranularityValue

    /** Both members keep their own name and unit, and their durations
        agree with their step counts. */
    ghost predicate Valid()
      reads this
    {
      IsSecondRecord(second, second.steps) && IsMinuteRecord(minute, minute.steps)
    }

    /** The record of member `m` as it stands now: every holder of the
        member sees the last `set_time_step`. */
    function Value(m: Member): (v: GranularityValue)
      reads this
      ensures m == SecondMember ==> v == second
      ensures m == MinuteMember ==> v == minute
    {
      match m
      case SecondMember => second
      case MinuteMember => minute
    }

    /** The records as declared: one step of one second, one step of one minute. */
    constructor ()
      ensures Valid()
      ensures IsSecondRecord(second, 1) && IsMinuteRecord(minute, 1)
    {
      second := GranularityValue(1, Seconds, SecondName, 1);
      minute := GranularityValue(60, Minutes, MinuteName, 1);
    }

    /** `set_time_step`: rewrites both records and returns the enumeration. */
    method SetTimeStep(steps: int) returns (cls: TimeGranularity)
      requires Valid()
      modifies this
      ensures Valid()
      ensures (second, minute) == StepRecords(old(second), old(minute), steps)
      ensures IsSecondRecord(second, steps) && IsMinuteRecord(minute, steps)
      ensures cls == this
    {
      second := second.(timedelta := steps);
      second := second.(steps := steps);
      minute := minute.(timedelta := 60 * steps);
      minute := minute.(steps := steps);
      cls := this;
    }
  }

  /** The number of seconds per sample that the fetch processes divide by:
      `steps` for SECOND, `60 * steps` for MINUTE. For any other name the
      source leaves the variable unbound, so the query cannot be built. */
  function TimeValue(v: GranularityValue): Option<int>
  {
    if v.name == SecondName then Some(1 * v.steps)
    else if v.name == MinuteName then Some(60 * v.steps)
    else None
  }

  /** For both members, in any state the enumeration can reach, the
      seconds-per-sample rule agrees with the member's own duration. */
  lemma TimeValueIsTimedelta(v: GranularityValue, steps: int)
    requires IsSecondRecord(v, steps) || IsMinuteRecord(v, steps)
    ensures TimeValue(v) == Some(v.timedelta)
    ensures IsMinuteRecord(v, steps) ==> TimeValue(v) == Some(60 * steps)
    ensures IsSecondRecord(v, steps) ==> TimeValue(v) == Some(steps)
  {
  }

  /** A record whose name is neither SECOND nor MINUTE has no seconds-per-sample value. */
  lemma TimeValueUndefinedElsewhere(v: GranularityValue)
    ensures TimeValue(v).None? <==> v.name != SecondName && v.name != MinuteName
  {
  }
}

=== FILE: handler.dfy ===
/** The layer handler: it keeps the window state of the animation in its
    fields and updates them on every frame change, on every finished
    fetch task and at start-up. Each method is proved against the
    reference functions of the window state machine; what the temporal
    controller, the task manager and the layer are asked to do is appended
    to `log`. */
module Handler {
  import opened Common
  import opened Timeline
  import opened Playback

  class MoveLayerHandler {
    const size: WindowSize
    const totalFrames: int
    const timestamps: seq<int>

    var key: int
    var end: int
    var previousFrame: int
    var direction: int
    var changedKey: bool
    var previousMatrix: Option<Matrix>
    var currentMatrix: Option<Matrix>
    var nextMatrix: Option<Matrix>

    /** The requests made so far, in order. */
    var log: seq<Event>

    /** What stays fixed for the whole animation. */
    function Config(): Config {
      Playback.Config(size, totalFrames, |timestamps|)
    }

    /** The animation state held in the fields. */
    function State(): State
      reads this
    {
      Playback.State(key, end, previousFrame, direction, changedKey,
                     Slots(previousMatrix, currentMatrix, nextMatrix))
    }

    /** The frame count matches the timeline and the key is aligned. */
    ghost predicate Valid()
      reads this
    {
      |timestamps| == totalFrames && KeyAligned(Config(), State())
    }

    /** `__init__`: builds the timeline for the data range and the
        granularity's frame duration, sets the start window from the
        caller's (key, frame), and asks for that window with the
        `initiate_animation` callback. */
    constructor (minTs: int, maxTs: int, timedelta: int, size: WindowSize, startKey: int, startFrame: int)
      requires timedelta > 0 && minTs <= maxTs
      requires PyIndex(|Timestamps(minTs, timedelta, TotalFrames(minTs, maxTs, timedelta, size))|, startKey).Some?
      ensures this.size == size
      ensures totalFrames == TotalFrames(minTs, maxTs, timedelta, size)
      ensures timestamps == Timestamps(minTs, timedelta, totalFrames)
      ensures State() == Start(Config(), startKey, startFrame)
      ensures log == [TaskAdded(FetchRequest(startKey, startKey + size - 1, Callback.InitiateAnimation))]
      ensures startKey >= 0 && startKey % size == 0 ==> Valid()
    {
      this.size := size;
      var total := TotalFrames(minTs, maxTs, timedelta, size);
      totalFrames := total;
      timestamps := Timestamps(minTs, timedelta, total);
      key := startKey;
      end := startKey + size - 1;
      previousFrame := startFrame;
      direction := 1;
      changedKey := false;
      previousMatrix := None;
      currentMatrix := None;
      nextMatrix := None;
      log := [TaskAdded(FetchRequest(startKey, startKey + size - 1, Callback.InitiateAnimation))];
    }

    /** `shift_matrices`. */
    method ShiftMatrices()
      modifies this
      ensures State() == old(State()).(slots := Shift(old(State()).slots))
      ensures log == old(log)
    {
      previousMatrix := currentMatrix;
      currentMatrix := nextMatrix;
      nextMatrix := None;
    }

    /** `fetch_next_data`: the guard, then the task's label lookup (which
        may raise), then the task. */
    method FetchNextData(timeDeltaKey: int) returns (raised: bool)
      modifies this
      ensures State() == old(State())
      ensures raised == Fetch(Config(), timeDeltaKey).0
      ensures log == old(log) + Fetch(Config(), timeDeltaKey).1
    {
      var begFrame := timeDeltaKey;
      var endFrame := timeDeltaKey + size - 1;
      raised := false;
      if endFrame <= totalFrames && begFrame >= 0 {
        if timeDeltaKey >= |timestamps| {
          raised := true;
          return;
        }
        log := log + [TaskAdded(FetchRequest(begFrame, endFrame, Callback.SetMatrix))];
      }
    }

    /** `update_vlayer_features`: shows column `previous_frame - key` of
        the current window; any failure is swallowed. */
    method UpdateVlayerFeatures()
      modifies this
      ensures State() == old(State())
      ensures log == old(log) + Render(State())
    {
      if currentMatrix.Some? {
        var column := ColumnAt(currentMatrix.value, previousFrame - key);
        if column.Some? {
          log := log + [FeaturesUpdated(column.value)];
        }
      }
    }

    /** The controller's pause, as requested for `reason`. */
    method Pause(reason: PauseReason)
      modifies this
      ensures State() == old(State())
      ensures log == old(log) + [PauseRequested(reason)]
    {
      log := log + [PauseRequested(reason)];
    }

    /** `on_new_frame` for the frame the controller reports, with `active`
        the task manager's count of active tasks. The new state, the
        requests and whether an exception escaped are those of `Tick`. */
    method OnNewFrame(frameNumber: int, active: nat) returns (raised: bool)
      modifies this
      ensures State() == Tick(Config(), old(State()), frameNumber, active).state
      ensures log == old(log) + Tick(Config(), old(State()), frameNumber, active).events
      ensures raised == Tick(Config(), old(State()), frameNumber, active).raised
      ensures old(Valid()) && frameNumber >= 0 ==> Valid()
    {
      ghost var s0 := State();
      ghost var log0 := log;
      RecordFrame(frameNumber);
      ghost var log1 := log;
      if frameNumber % size == 0 {
        if direction == 1 {
          raised := CrossForward(frameNumber, active);
        } else {
          raised := CrossBackward(frameNumber, active);
        }
      } else {
        StepInside(frameNumber);
        raised := false;
      }
      ghost var moved := Move(Config(), Recorded(s0, frameNumber), frameNumber, active);
      assert State() == moved.state && raised == moved.raised;
      assert log == log1 + moved.events;
      AppendAssociates(log0, EdgePause(Config(), s0, frameNumber), moved.events);
      if |timestamps| == totalFrames && KeyAligned(Config(), s0) && frameNumber >= 0 {
        TickKeepsKeyAligned(Config(), s0, frameNumber, active);
      }
    }

    /** The first part of `on_new_frame`: the direction, the pause at
        either end, and the frame. */
    method RecordFrame(frameNumber: int)
      modifies this
      ensures State() == Recorded(old(State()), frameNumber)
      ensures log == old(log) + EdgePause(Config(), old(State()), frameNumber)
    {
      if previousFrame - frameNumber <= 0 {
        direction := 1;
        if frameNumber >= totalFrames {
          Pause(EndReached);
        }
      } else {
        direction := 0;
        if frameNumber <= 0 {
          Pause(StartReached);
        }
      }
      previousFrame := frameNumber;
    }

    /** The forward boundary branch of `on_new_frame`. */
    method CrossForward(frameNumber: int, active: nat) returns (raised: bool)
      requires frameNumber % size == 0 && direction == 1
      modifies this
      ensures State() == Move(Config(), old(State()), frameNumber, active).state
      ensures log == old(log) + Move(Config(), old(State()), frameNumber, active).events
      ensures raised == Move(Config(), old(State()), frameNumber, active).raised
    {
      raised := false;
      if end + 1 != totalFrames {
        ghost var log0 := log;
        key := frameNumber;
        end := key + size - 1;
        ShiftMatrices();
        ghost var entered := State();
        ghost var requested := Fetch(Config(), WindowAfter(Config(), key)).1;
        raised := FetchNextData(key + size);
        if raised {
          return;
        }
        if active != 0 {
          Pause(FetchPending);
        }
        assert log == log0 + requested + PendingPause(active);
        UpdateVlayerFeatures();
        AppendAssociates(log0, requested, PendingPause(active));
        AppendAssociates(log0, requested + PendingPause(active), Render(entered));
        assert State() == entered;
        changedKey := true;
      }
    }

    /** The backward boundary branch of `on_new_frame`. */
    method CrossBackward(frameNumber: int, active: nat) returns (raised: bool)
      requires frameNumber % size == 0 && direction != 1
      modifies this
      ensures State() == Move(Config(), old(State()), frameNumber, active).state
      ensures log == old(log) + Move(Config(), old(State()), frameNumber, active).events
      ensures raised == Move(Config(), old(State()), frameNumber, active).raised
    {
      raised := false;
      ghost var log0 := log;
      UpdateVlayerFeatures();
      ghost var shown := Render(old(State()));
      if key != 0 {
        key := key - size;
        end := frameNumber - 1;
        ShiftMatrices();
        ghost var requested := Fetch(Config(), WindowBefore(Config(), key)).1;
        raised := FetchNextData(key - size);
        if raised {
          AppendAssociates(log0, shown, requested);
          return;
        }
        if active != 0 {
          Pause(FetchPending);
        }
        assert log == log0 + shown + requested + PendingPause(active);
        AppendAssociates(log0, shown, requested);
        AppendAssociates(log0, shown + requested, PendingPause(active));
        changedKey := true;
      }
    }

    /** The branch of `on_new_frame` for a frame off the boundaries. */
    method StepInside(frameNumber: int)
      requires frameNumber % size != 0
      modifies this
      ensures State() == Move(Config(), old(State()), frameNumber, 0).state
      ensures log == old(log) + Move(Config(), old(State()), frameNumber, 0).events
    {
      if changedKey {
        if frameNumber < key {
          key := key - size;
          end := frameNumber;
          changedKey := false;
        }
      }
      UpdateVlayerFeatures();
      changedKey := false;
    }

    /** `set_frame_rate` after a fetch that took `elapsed` seconds. */
    method SetFrameRate(elapsed: real) returns (raised: bool)
      modifies this
      ensures State() == old(State())
      ensures raised == RateEvents(Config(), elapsed).0
      ensures log == old(log) + RateEvents(Config(), elapsed).1
    {
      if elapsed == 0.0 {
        return true;
      }
      var uninterrupted := size as real / elapsed;
      var newFps := if uninterrupted <= Fps then uninterrupted else Fps;
      log := log + [FrameRateSet(newFps)];
      return false;
    }

    /** `initiate_animation`, called with the first window once fetched. */
    method InitiateAnimation(m: Matrix, elapsed: real) returns (raised: bool)
      modifies this
      ensures State() == Initiate(Config(), old(State()), m, elapsed).state
      ensures log == old(log) + Initiate(Config(), old(State()), m, elapsed).events
      ensures raised == Initiate(Config(), old(State()), m, elapsed).raised
      ensures old(Valid()) ==> Valid()
    {
      currentMatrix := Some(m);
      raised := SetFrameRate(elapsed);
      if raised {
        return;
      }
      raised := FetchNextData(size);
      if raised {
        return;
      }
      UpdateVlayerFeatures();
    }

    /** `set_matrix`, called with each later window once fetched. */
    method SetMatrix(m: Matrix, elapsed: real) returns (raised: bool)
      modifies this
      ensures State() == Install(Config(), old(State()), m, elapsed).state
      ensures log == old(log) + Install(Config(), old(State()), m, elapsed).events
      ensures raised == Install(Config(), old(State()), m, elapsed).raised
      ensures old(Valid()) ==> Valid()
    {
      nextMatrix := Some(m);
      raised := SetFrameRate(elapsed);
    }
  }
}

=== FILE: playback.dfy ===
/** The window state machine of the layer handler as a function of its
    state: the reference that the handler's methods are proved against,
    and the properties of window keys, buffer slots, fetch requests and
    pause requests proved about it.

    Calls the handler makes into the temporal controller, the task
    manager and the layer appear as recorded events, in order. */
module Playback {
  import opened Common
  import opened Timeline

  /** A window size: `time_delta_size`, a positive frame count. */
  type WindowSize = n: int | n > 0 witness 1

  /** Which handler method a fetch task calls back on success. */
  datatype Callback = InitiateAnimation | SetMatrix

  /** A window fetch task as handed to the task manager. */
  datatype FetchRequest = FetchRequest(beginFrame: int, endFrame: int, onSuccess: Callback)

  /** Which line asked the temporal controller to pause. */
  datatype PauseReason =
    | EndReached      // moving forward at or past the last frame
    | StartReached    // moving backward at or before frame 0
    | FetchPending    // a window boundary was crossed while tasks are active

  datatype Event =
    | PauseRequested(reason: PauseReason)
    | TaskAdded(request: FetchRequest)
    | FeaturesUpdated(geometries: seq<Geom>)   // one geometry per object, for the shown frame
    | FrameRateSet(fps: real)

  /** The three buffered windows. */
  datatype Slots = Slots(previous: Option<Matrix>, current: Option<Matrix>, next: Option<Matrix>)

  /** The handler's animation state (its fields `current_time_delta_key`,
      `current_time_delta_end`, `previous_frame`, `direction`,
      `changed_key` and the three matrix slots). Direction 1 is forward,
      0 backward. */
  datatype State = State(
    key: int,
    end: int,
    previousFrame: int,
    direction: int,
    changedKey: bool,
    slots: Slots)

  /** What does not change during an animation: the window size, the
      frame count and the number of timestamp strings. */
  datatype Config = Config(size: WindowSize, totalFrames: int, stampCount: nat)

  /** The outcome of one handler operation: the new state, the events in
      order, and whether an exception escaped (which ends the operation
      where it is raised). */
  datatype Step = Step(state: State, events: seq<Event>, raised: bool)

  /** `shift_matrices`. */
  function Shift(s: Slots): Slots {
    Slots(s.current, s.next, None)
  }

  /** The guard of `fetch_next_data`: the window `[key, key+size-1]` must
      end no later than the frame count and start no earlier than 0. */
  predicate FetchAllowed(c: Config, key: int) {
    key + c.size - 1 <= c.totalFrames && key >= 0
  }

  /** `fetch_next_data(key)`: nothing when the guard fails; otherwise one
      task for `[key, key+size-1]` calling `set_matrix`, unless looking
      up the task's label `timestamps_strings[key]` raises. */
  function Fetch(c: Config, key: int): (r: (bool, seq<Event>))
  {
    if !FetchAllowed(c, key) then (false, [])
    else if key >= c.stampCount then (true, [])
    else (false, [TaskAdded(FetchRequest(key, key + c.size - 1, SetMatrix))])
  }

  /** The column of the current matrix that `update_vlayer_features`
      shows: index `previous_frame - key`, under numpy's rule. None when
      there is no current matrix or the index is out of range. */
  function FrameColumn(s: State): Option<seq<Geom>> {
    match s.slots.current
    case None => None
    case Some(m) => ColumnAt(m, s.previousFrame - s.key)
  }

  /** `update_vlayer_features`: the column is shown, or, when reading it
      fails, the failure is swallowed and nothing happens. */
  function Render(s: State): seq<Event> {
    match FrameColumn(s)
    case None => []
    case Some(col) => [FeaturesUpdated(col)]
  }

  /** The pause requested at either end of the animation. */
  function EdgePause(c: Config, s: State, frame: int): seq<Event> {
    if s.previousFrame - frame <= 0 then
      (if frame >= c.totalFrames then [PauseRequested(EndReached)] else [])
    else
      (if frame <= 0 then [PauseRequested(StartReached)] else [])
  }

  /** The pause requested after a boundary crossing while tasks are active. */
  function PendingPause(active: nat): seq<Event> {
    if active != 0 then [PauseRequested(FetchPending)] else []
  }

  /** The state once a tick has recorded its frame and its direction
      (forward unless the frame went back). */
  function Recorded(s: State, frame: int): State {
    s.(direction := if s.previousFrame - frame <= 0 then 1 else 0, previousFrame := frame)
  }

  /** The state once the window has moved to `[key, end]`, with the slots
      shifted. */
  function Entered(s1: State, key: int, end: int): State {
    s1.(key := key, end := end, slots := Shift(s1.slots))
  }

  /** Off a window boundary, right after a key change, a frame before the
      key moves the key back one window and ends the window at the frame. */
  function Realigned(c: Config, s1: State, frame: int): State {
    if s1.changedKey && frame < s1.key then s1.(key := WindowBefore(c, s1.key), end := frame) else s1
  }

  /** The key of the window just before the one at `key`. */
  function WindowBefore(c: Config, key: int): int
  {
    key - c.size
  }

  /** The key of the window just after the one at `key`. */
  function WindowAfter(c: Config, key: int): int
  {
    key + c.size
  }

  /** What `on_new_frame` does after the edge pause, from the state that
      already records the tick's frame and direction. */
  function Move(c: Config, s1: State, frame: int, active: nat): Step
  {
    if frame % c.size == 0 then
      if s1.direction == 1 then
        if s1.end + 1 != c.totalFrames then
          var s2 := Entered(s1, frame, frame + c.size - 1);
          var f := Fetch(c, WindowAfter(c, s2.key));
          if f.0 then Step(s2, f.1, true)
          else Step(s2.(changedKey := true), f.1 + PendingPause(active) + Render(s2), false)
        else Step(s1, [], false)
      else
        if s1.key != 0 then
          var s2 := Entered(s1, WindowBefore(c, s1.key), frame - 1);
          var f := Fetch(c, WindowBefore(c, s2.key));
          if f.0 then Step(s2, Render(s1) + f.1, true)
          else Step(s2.(changedKey := true), Render(s1) + f.1 + PendingPause(active), false)
        else Step(s1, Render(s1), false)
    else
      var s2 := Realigned(c, s1, frame);
      Step(s2.(changedKey := false), Render(s2), false)
  }

  /** `on_new_frame` for the tick `frame`, with `active` the task
      manager's count of active tasks when it is asked: the edge pause,
      then the window move. */
  function Tick(c: Config, s: State, frame: int, active: nat): Step
  {
    var r := Move(c, Recorded(s, frame), frame, active);
    Step(r.state, EdgePause(c, s, frame) + r.events, r.raised)
  }

  /** The handler's frame rate, which `set_frame_rate` never changes. */
  const Fps: real := 100.0

  /** `set_frame_rate`: the rate at which a window of `size` frames plays
      in the time the last fetch took, capped at the handler's rate. */
  function FrameRate(size: WindowSize, elapsed: real): real
    requires elapsed != 0.0
  {
    var uninterrupted := size as real / elapsed;
    if uninterrupted <= Fps then uninterrupted else Fps
  }

  /** Setting the frame rate after a fetch that took `elapsed` seconds;
      a zero duration raises a division by zero. */
  function RateEvents(c: Config, elapsed: real): (r: (bool, seq<Event>))
  {
    if elapsed == 0.0 then (true, []) else (false, [FrameRateSet(FrameRate(c.size, elapsed))])
  }

  /** `initiate_animation`: the first window becomes current, the frame
      rate is set, the window at key `size` is requested, and the frame is
      shown. */
  function Initiate(c: Config, s: State, m: Matrix, elapsed: real): Step {
    var s1 := s.(slots := s.slots.(current := Some(m)));
    var rate := RateEvents(c, elapsed);
    if rate.0 then Step(s1, [], true)
    else
      var f := Fetch(c, c.size);
      if f.0 then Step(s1, rate.1 + f.1, true) else Step(s1, rate.1 + f.1 + Render(s1), false)
  }

  /** `set_matrix`: the fetched window goes into the next slot and the
      frame rate is set. */
  function Install(c: Config, s: State, m: Matrix, elapsed: real): Step {
    var s1 := s.(slots := s.slots.(next := Some(m)));
    var rate := RateEvents(c, elapsed);
    Step(s1, rate.1, rate.0)
  }

  /** The state the handler starts in, from the caller's (key, frame). */
  function Start(c: Config, startKey: int, startFrame: int): State {
    State(startKey, startKey + c.size - 1, startFrame, 1, false, Slots(None, None, None))
  }

  // ---- Properties ----

  /** The task request one event carries, if any. */
  function RequestIn(e: Event): seq<FetchRequest> {
    if e.TaskAdded? then [e.request] else []
  }

  /** The task requests among some events, in order. */
  function Requests(events: seq<Event>): seq<FetchRequest>
    decreases |events|
  {
    if |events| == 0 then [] else Requests(events[..|events| - 1]) + RequestIn(events[|events| - 1])
  }

  lemma {:induction false} RequestsAppend(a: seq<Event>, b: seq<Event>)
    ensures Requests(a + b) == Requests(a) + Requests(b)
    decreases |b|
  {
    if |b| == 0 {
      assert a + b == a;
    } else {
      var b' := b[..|b| - 1];
      assert (a + b)[..|a + b| - 1] == a + b';
      RequestsAppend(a, b');
    }
  }

  /** The pause one event requests, if any. */
  function PauseIn(e: Event): seq<PauseReason> {
    if e.PauseRequested? then [e.reason] else []
  }

  /** The pauses requested among some events, in order. */
  function Pauses(events: seq<Event>): seq<PauseReason>
    decreases |events|
  {
    if |events| == 0 then [] else Pauses(events[..|events| - 1]) + PauseIn(events[|events| - 1])
  }

  lemma {:induction false} PausesAppend(a: seq<Event>, b: seq<Event>)
    ensures Pauses(a + b) == Pauses(a) + Pauses(b)
    decreases |b|
  {
    if |b| == 0 {
      assert a + b == a;
    } else {
      var b' := b[..|b| - 1];
      assert (a + b)[..|a + b| - 1] == a + b';
      PausesAppend(a, b');
    }
  }

  /** `fetch_next_data(key)` adds exactly one task, for
      `[key, key+size-1]` with the `set_matrix` callback, when the guard
      holds and the label lookup does not raise; it raises exactly when
      the guard holds and `key` is past the timestamp strings; otherwise
      it does nothing. */
  lemma FetchExactlyOne(c: Config, key: int)
    ensures Fetch(c, key).0 <==> FetchAllowed(c, key) && key >= c.stampCount
    ensures FetchAllowed(c, key) && key < c.stampCount ==>
              Fetch(c, key).1 == [TaskAdded(FetchRequest(key, key + c.size - 1, SetMatrix))]
    ensures !(FetchAllowed(c, key) && key < c.stampCount) ==> Fetch(c, key).1 == []
  {
  }

  /** With the timestamp strings as long as the frame count, the only key
      that passes the guard and still raises is the frame count itself,
      reached only with windows of one frame. */
  lemma FetchRaisesOnlyPastLastFrame(c: Config, key: int)
    requires c.stampCount == c.totalFrames
    ensures Fetch(c, key).0 <==> c.size == 1 && key == c.totalFrames && key >= 0
  {
  }

  /** `fetch_next_data(key)` as the code stands. Once the guard holds, the
      label `timestamps_strings[key]` is looked up and then the task's
      worker is read as `self.create_matrix`, an attribute the handler
      never defines. Either read raises before a task is added. */
  function FetchAsWritten(c: Config, key: int): (r: (bool, seq<Event>))
    ensures r.1 == []
    ensures r.0 <==> FetchAllowed(c, key)
  {
    if !FetchAllowed(c, key) then (false, [])
    else if key >= c.stampCount then (true, [])  // IndexError on the label
    else (true, [])                              // AttributeError on the worker
  }

  /** Wherever `Fetch` adds its task, the code as it stands raises
      instead and requests nothing. */
  lemma FetchAsWrittenNeverRequests(c: Config, key: int)
    requires FetchAllowed(c, key) && key < c.stampCount
    ensures FetchAsWritten(c, key).0 && Requests(FetchAsWritten(c, key).1) == []
    ensures !Fetch(c, key).0 && Requests(Fetch(c, key).1) == [FetchRequest(key, key + c.size - 1, SetMatrix)]
  {
    FetchPieces(c, key);
  }

  /** With windows of ten frames over a hundred, the fetch of the second
      window that `initiate_animation` makes raises as the code stands. */
  lemma SecondWindowFetchRaisesAsWritten()
    ensures FetchAsWritten(Config(10, 100, 100), 10).0
    ensures Requests(Fetch(Config(10, 100, 100), 10).1) == [FetchRequest(10, 19, SetMatrix)]
  {
    FetchAsWrittenNeverRequests(Config(10, 100, 100), 10);
  }

  /** Every tick records the frame, and the direction is forward exactly
      when the frame did not go back. */
  lemma TickDirection(c: Config, s: State, frame: int, active: nat)
    ensures Tick(c, s, frame, active).state.previousFrame == frame
    ensures Tick(c, s, frame, active).state.direction == 1 <==> frame >= s.previousFrame
    ensures Tick(c, s, frame, active).state.direction == 0 <==> frame < s.previousFrame
  {
  }

  /** No pause among some events asks to stop at either end. */
  predicate NoEdgePause(events: seq<Event>) {
    forall k :: 0 <= k < |events| && events[k].PauseRequested? ==> events[k].reason == FetchPending
  }

  /** The window move never asks to stop at either end. */
  lemma MoveHasNoEdgePause(c: Config, s1: State, frame: int, active: nat)
    ensures NoEdgePause(Move(c, s1, frame, active).events)
  {
  }

  /** A pause at the end is requested exactly when moving forward at or
      past the frame count, one at the start exactly when moving backward
      at or before frame 0; either comes before everything else. */
  lemma TickEdgePause(c: Config, s: State, frame: int, active: nat)
    ensures var ev := Tick(c, s, frame, active).events;
            (PauseRequested(EndReached) in ev <==> frame >= s.previousFrame && frame >= c.totalFrames) &&
            (PauseRequested(StartReached) in ev <==> frame < s.previousFrame && frame <= 0) &&
            ev[..|EdgePause(c, s, frame)|] == EdgePause(c, s, frame)
  {
    var s1 := Recorded(s, frame);
    var rest := Move(c, s1, frame, active).events;
    var e0 := EdgePause(c, s, frame);
    var ev := Tick(c, s, frame, active).events;
    assert ev == e0 + rest;
    MoveHasNoEdgePause(c, s1, frame, active);
    assert PauseRequested(EndReached) !in rest;
    assert PauseRequested(StartReached) !in rest;
    assert ev[..|e0|] == e0;
  }

  /** The task request `fetch_next_data(key)` makes, if any. */
  function Requested(c: Config, key: int): seq<FetchRequest> {
    if FetchAllowed(c, key) && key < c.stampCount then [FetchRequest(key, key + c.size - 1, SetMatrix)] else []
  }

  lemma SingleRequests(e: seq<Event>)
    requires |e| <= 1
    ensures Requests(e) == (if |e| == 1 then RequestIn(e[0]) else [])
  {
    if |e| == 1 {
      assert e[..0] == [];
    }
  }

  lemma SinglePauses(e: seq<Event>)
    requires |e| <= 1
    ensures Pauses(e) == (if |e| == 1 then PauseIn(e[0]) else [])
  {
    if |e| == 1 {
      assert e[..0] == [];
    }
  }

  /** The pauses at either end never add a task. */
  lemma EdgeRequests(c: Config, s: State, frame: int)
    ensures Requests(EdgePause(c, s, frame)) == []
  {
    SingleRequests(EdgePause(c, s, frame));
  }

  /** Showing a frame neither adds a task nor pauses. */
  lemma RenderQuiet(s: State)
    ensures Requests(Render(s)) == [] && Pauses(Render(s)) == []
  {
    SingleRequests(Render(s));
    SinglePauses(Render(s));
  }

  /** The pending pause after a fetch that did not raise adds no task,
      and pauses exactly when tasks are active. */
  lemma PendingPieces(raised: bool, active: nat)
    ensures Requests(if raised then [] else PendingPause(active)) == []
    ensures Pauses(if raised then [] else PendingPause(active)) ==
              (if !raised && active != 0 then [FetchPending] else [])
  {
    SingleRequests(if raised then [] else PendingPause(active));
    SinglePauses(if raised then [] else PendingPause(active));
  }

  /** A fetch adds its task, if any, and never pauses. */
  lemma FetchPieces(c: Config, key: int)
    ensures Requests(Fetch(c, key).1) == Requested(c, key)
    ensures Pauses(Fetch(c, key).1) == []
  {
    SingleRequests(Fetch(c, key).1);
    SinglePauses(Fetch(c, key).1);
  }

  /** An empty operand of a concatenation can be dropped. */
  lemma DropEmpty<T>(x: seq<T>, y: seq<T>)
    ensures x == [] ==> x + y == y
    ensures y == [] ==> x + y == x
  {
  }

  /** Concatenation is associative. */
  lemma AppendAssociates<T>(x: seq<T>, y: seq<T>, z: seq<T>)
    ensures x + y + z == x + (y + z)
  {
  }

  lemma RequestsAround(a: seq<Event>, b: seq<Event>, p: seq<Event>)
    requires Requests(a) == [] && Requests(p) == []
    ensures Requests(a + b + p) == Requests(b)
  {
    RequestsAppend(a, b);
    RequestsAppend(a + b, p);
    DropEmpty(Requests(a + b), Requests(p));
    DropEmpty(Requests(a), Requests(b));
  }

  lemma RequestsBefore(a: seq<Event>, b: seq<Event>)
    requires Requests(b) == []
    ensures Requests(a + b) == Requests(a)
  {
    RequestsAppend(a, b);
    DropEmpty(Requests(a), Requests(b));
  }

  lemma PausesAround(a: seq<Event>, b: seq<Event>, p: seq<Event>)
    requires Pauses(b) == []
    ensures Pauses(a + b + p) == Pauses(a) + Pauses(p)
  {
    PausesAppend(a, b);
    PausesAppend(a + b, p);
    DropEmpty(Pauses(a), Pauses(b));
  }

  lemma RequestsSecond(a: seq<Event>, f: seq<Event>, p: seq<Event>, d: seq<Event>)
    requires Requests(a) == [] && Requests(p) == [] && Requests(d) == []
    ensures Requests(a + f + p + d) == Requests(f)
  {
    RequestsAround(a, f, p);
    RequestsBefore(a + f + p, d);
  }

  lemma RequestsThird(a: seq<Event>, b: seq<Event>, f: seq<Event>, p: seq<Event>)
    requires Requests(a) == [] && Requests(b) == [] && Requests(p) == []
    ensures Requests(a + b + f + p) == Requests(f)
  {
    RequestsAppend(a, b);
    DropEmpty(Requests(a), Requests(b));
    RequestsAround(a + b, f, p);
  }

  lemma PausesFirstAndThird(a: seq<Event>, f: seq<Event>, p: seq<Event>, d: seq<Event>)
    requires Pauses(f) == [] && Pauses(d) == []
    ensures Pauses(a + f + p + d) == Pauses(a) + Pauses(p)
  {
    PausesAround(a, f, p);
    PausesBefore(a + f + p, d);
  }

  lemma PausesFirstAndLast(a: seq<Event>, b: seq<Event>, f: seq<Event>, p: seq<Event>)
    requires Pauses(b) == [] && Pauses(f) == []
    ensures Pauses(a + b + f + p) == Pauses(a) + Pauses(p)
  {
    PausesBefore(a, b);
    PausesAround(a + b, f, p);
  }

  lemma PausesBefore(a: seq<Event>, b: seq<Event>)
    requires Pauses(b) == []
    ensures Pauses(a + b) == Pauses(a)
  {
    PausesAppend(a, b);
    DropEmpty(Pauses(a), Pauses(b));
  }

  /** The state after a forward boundary crossing. */
  lemma ForwardState(c: Config, s: State, frame: int, active: nat)
    requires frame % c.size == 0 && frame >= s.previousFrame
    requires s.end + 1 != c.totalFrames
    ensures Tick(c, s, frame, active).state.key == frame
    ensures Tick(c, s, frame, active).state.end == frame + c.size - 1
    ensures Tick(c, s, frame, active).state.slots == Shift(s.slots)
    ensures Tick(c, s, frame, active).raised == Fetch(c, WindowAfter(c, frame)).0
    ensures !Tick(c, s, frame, active).raised ==> Tick(c, s, frame, active).state.changedKey
  {
  }

  /** The events of a forward boundary crossing, in order. */
  lemma ForwardEvents(c: Config, s: State, frame: int, active: nat)
    requires frame % c.size == 0 && frame >= s.previousFrame
    requires s.end + 1 != c.totalFrames
    ensures Tick(c, s, frame, active).events ==
              EdgePause(c, s, frame) + Fetch(c, WindowAfter(c, frame)).1 +
              (if Fetch(c, WindowAfter(c, frame)).0 then [] else PendingPause(active)) +
              (if Fetch(c, WindowAfter(c, frame)).0 then []
               else Render(Entered(Recorded(s, frame), frame, frame + c.size - 1)))
  {
  }

  /** A forward crossing's events (edge pause, fetch, pending pause, the
      frame shown) ask only for the fetched window. */
  lemma ForwardRequests(c: Config, key: int, events: seq<Event>, edge: seq<Event>, shown: seq<Event>, active: nat)
    requires events == edge + Fetch(c, key).1 + (if Fetch(c, key).0 then [] else PendingPause(active)) +
                       (if Fetch(c, key).0 then [] else shown)
    requires Requests(edge) == [] && Requests(shown) == []
    ensures Requests(events) == Requested(c, key)
  {
    PendingPieces(Fetch(c, key).0, active);
    FetchPieces(c, key);
    RequestsSecond(edge, Fetch(c, key).1, if Fetch(c, key).0 then [] else PendingPause(active),
                   if Fetch(c, key).0 then [] else shown);
  }

  /** A forward crossing's events pause as the edge pause does, and once
      more when the fetch did not raise and tasks are active. */
  lemma ForwardPauses(c: Config, key: int, events: seq<Event>, edge: seq<Event>, shown: seq<Event>, active: nat)
    requires events == edge + Fetch(c, key).1 + (if Fetch(c, key).0 then [] else PendingPause(active)) +
                       (if Fetch(c, key).0 then [] else shown)
    requires Pauses(shown) == []
    ensures Pauses(events) == Pauses(edge) + (if !Fetch(c, key).0 && active != 0 then [FetchPending] else [])
  {
    PendingPieces(Fetch(c, key).0, active);
    FetchPieces(c, key);
    PausesFirstAndThird(edge, Fetch(c, key).1, if Fetch(c, key).0 then [] else PendingPause(active),
                        if Fetch(c, key).0 then [] else shown);
  }

  /** A forward tick on a window boundary, unless the current window is
      the last one, makes the tick's frame the key, ends the window
      `size - 1` frames later, shifts the slots, and asks for the window
      after it; then, unless the request raised, it marks the key as
      changed and adds a pause exactly when tasks are active. */
  lemma ForwardCrossing(c: Config, s: State, frame: int, active: nat)
    requires frame % c.size == 0 && frame >= s.previousFrame
    requires s.end + 1 != c.totalFrames
    ensures Tick(c, s, frame, active).state.key == frame
    ensures Tick(c, s, frame, active).state.end == frame + c.size - 1
    ensures Tick(c, s, frame, active).state.slots == Shift(s.slots)
    ensures Tick(c, s, frame, active).raised == Fetch(c, WindowAfter(c, frame)).0
    ensures !Tick(c, s, frame, active).raised ==> Tick(c, s, frame, active).state.changedKey
    ensures Requests(Tick(c, s, frame, active).events) == Requested(c, WindowAfter(c, frame))
    ensures Pauses(Tick(c, s, frame, active).events) ==
              Pauses(EdgePause(c, s, frame)) +
              (if !Fetch(c, WindowAfter(c, frame)).0 && active != 0 then [FetchPending] else [])
  {
    var s2 := Entered(Recorded(s, frame), frame, frame + c.size - 1);
    ForwardState(c, s, frame, active);
    ForwardEvents(c, s, frame, active);
    EdgeRequests(c, s, frame);
    RenderQuiet(s2);
    ForwardRequests(c, WindowAfter(c, frame), Tick(c, s, frame, active).events, EdgePause(c, s, frame), Render(s2), active);
    ForwardPauses(c, WindowAfter(c, frame), Tick(c, s, frame, active).events, EdgePause(c, s, frame), Render(s2), active);
  }

  /** On the last window a forward boundary tick leaves key, end, slots
      and the key-change mark alone, asks for nothing and pauses only at
      the end. */
  lemma ForwardCrossingAtLastWindow(c: Config, s: State, frame: int, active: nat)
    requires frame % c.size == 0 && frame >= s.previousFrame
    requires s.end + 1 == c.totalFrames
    ensures var r := Tick(c, s, frame, active);
            r.state.key == s.key && r.state.end == s.end && r.state.slots == s.slots &&
            r.state.changedKey == s.changedKey &&
            !r.raised && Requests(r.events) == [] && Pauses(r.events) == Pauses(EdgePause(c, s, frame))
  {
    EdgeRequests(c, s, frame);
    DropEmpty(EdgePause(c, s, frame), []);
  }

  /** The state after a backward boundary crossing. */
  lemma BackwardState(c: Config, s: State, frame: int, active: nat)
    requires frame % c.size == 0 && frame < s.previousFrame && s.key != 0
    ensures Tick(c, s, frame, active).state.key == s.key - c.size
    ensures Tick(c, s, frame, active).state.end == frame - 1
    ensures Tick(c, s, frame, active).state.slots == Shift(s.slots)
    ensures Tick(c, s, frame, active).raised == Fetch(c, WindowBefore(c, WindowBefore(c, s.key))).0
    ensures !Tick(c, s, frame, active).raised ==> Tick(c, s, frame, active).state.changedKey
  {
  }

  /** The events of a backward boundary crossing, in order. */
  lemma BackwardEvents(c: Config, s: State, frame: int, active: nat)
    requires frame % c.size == 0 && frame < s.previousFrame && s.key != 0
    ensures Tick(c, s, frame, active).events ==
              EdgePause(c, s, frame) + Render(Recorded(s, frame)) +
              Fetch(c, WindowBefore(c, WindowBefore(c, s.key))).1 +
              (if Fetch(c, WindowBefore(c, WindowBefore(c, s.key))).0 then [] else PendingPause(active))
  {
  }

  /** A backward crossing's events (edge pause, the frame shown, fetch,
      pending pause) ask only for the fetched window. */
  lemma BackwardRequests(c: Config, key: int, events: seq<Event>, edge: seq<Event>, shown: seq<Event>, active: nat)
    requires events == edge + shown + Fetch(c, key).1 + (if Fetch(c, key).0 then [] else PendingPause(active))
    requires Requests(edge) == [] && Requests(shown) == []
    ensures Requests(events) == Requested(c, key)
  {
    PendingPieces(Fetch(c, key).0, active);
    FetchPieces(c, key);
    RequestsThird(edge, shown, Fetch(c, key).1, if Fetch(c, key).0 then [] else PendingPause(active));
  }

  /** A backward crossing's events pause as the edge pause does, and once
      more when the fetch did not raise and tasks are active. */
  lemma BackwardPauses(c: Config, key: int, events: seq<Event>, edge: seq<Event>, shown: seq<Event>, active: nat)
    requires events == edge + shown + Fetch(c, key).1 + (if Fetch(c, key).0 then [] else PendingPause(active))
    requires Pauses(shown) == []
    ensures Pauses(events) == Pauses(edge) + (if !Fetch(c, key).0 && active != 0 then [FetchPending] else [])
  {
    PendingPieces(Fetch(c, key).0, active);
    FetchPieces(c, key);
    PausesFirstAndLast(edge, shown, Fetch(c, key).1, if Fetch(c, key).0 then [] else PendingPause(active));
  }

  /** A backward tick on a window boundary, unless the key is 0, shows the
      frame, moves the key back by exactly one window, ends the window just
      before the tick's frame, applies the same forward-style shift, and
      asks for the window before the new key; unless that raised, it marks
      the key as changed and adds a pause exactly when tasks are active. */
  lemma BackwardCrossing(c: Config, s: State, frame: int, active: nat)
    requires frame % c.size == 0 && frame < s.previousFrame && s.key != 0
    ensures Tick(c, s, frame, active).state.key == s.key - c.size
    ensures Tick(c, s, frame, active).state.end == frame - 1
    ensures Tick(c, s, frame, active).state.slots == Shift(s.slots)
    ensures Tick(c, s, frame, active).raised == Fetch(c, WindowBefore(c, WindowBefore(c, s.key))).0
    ensures !Tick(c, s, frame, active).raised ==> Tick(c, s, frame, active).state.changedKey
    ensures Requests(Tick(c, s, frame, active).events) == Requested(c, WindowBefore(c, WindowBefore(c, s.key)))
    ensures Pauses(Tick(c, s, frame, active).events) ==
              Pauses(EdgePause(c, s, frame)) +
              (if !Fetch(c, WindowBefore(c, WindowBefore(c, s.key))).0 && active != 0 then [FetchPending] else [])
  {
    var s1 := Recorded(s, frame);
    BackwardState(c, s, frame, active);
    BackwardEvents(c, s, frame, active);
    EdgeRequests(c, s, frame);
    RenderQuiet(s1);
    BackwardRequests(c, WindowBefore(c, WindowBefore(c, s.key)), Tick(c, s, frame, active).events, EdgePause(c, s, frame), Render(s1), active);
    BackwardPauses(c, WindowBefore(c, WindowBefore(c, s.key)), Tick(c, s, frame, active).events, EdgePause(c, s, frame), Render(s1), active);
  }

  /** With key 0 a backward boundary tick moves nothing, asks for nothing
      and pauses only at the start. */
  lemma BackwardCrossingAtFirstWindow(c: Config, s: State, frame: int, active: nat)
    requires frame % c.size == 0 && frame < s.previousFrame && s.key == 0
    ensures var r := Tick(c, s, frame, active);
            r.state.key == 0 && r.state.end == s.end && r.state.slots == s.slots &&
            r.state.changedKey == s.changedKey && !r.raised &&
            Requests(r.events) == [] && Pauses(r.events) == Pauses(EdgePause(c, s, frame))
  {
    var s1 := Recorded(s, frame);
    EdgeRequests(c, s, frame);
    RenderQuiet(s1);
    RequestsBefore(EdgePause(c, s, frame), Render(s1));
    PausesBefore(EdgePause(c, s, frame), Render(s1));
  }

  /** The events of a tick off the boundaries. */
  lemma NonBoundaryEvents(c: Config, s: State, frame: int, active: nat)
    requires frame % c.size != 0
    ensures Tick(c, s, frame, active).events == EdgePause(c, s, frame) + Render(Realigned(c, Recorded(s, frame), frame))
  {
  }

  /** A tick off the boundaries asks for nothing, pauses only at either
      end, and always clears `changed_key`; right after a key change it
      moves the key back one window (and ends the window at the frame)
      when the frame lies before the key, and otherwise leaves key and end
      alone. */
  lemma NonBoundaryTick(c: Config, s: State, frame: int, active: nat)
    requires frame % c.size != 0
    ensures var r := Tick(c, s, frame, active);
            !r.state.changedKey && !r.raised &&
            Requests(r.events) == [] && Pauses(r.events) == Pauses(EdgePause(c, s, frame)) &&
            r.state.slots == s.slots && r.state.previousFrame == frame &&
            (s.changedKey && frame < s.key ==> r.state.key == s.key - c.size && r.state.end == frame) &&
            (!(s.changedKey && frame < s.key) ==> r.state.key == s.key && r.state.end == s.end)
  {
    var s2 := Realigned(c, Recorded(s, frame), frame);
    NonBoundaryEvents(c, s, frame, active);
    EdgeRequests(c, s, frame);
    RenderQuiet(s2);
    RequestsBefore(EdgePause(c, s, frame), Render(s2));
    PausesBefore(EdgePause(c, s, frame), Render(s2));
  }

  /** The window key is a non-negative multiple of the window size. */
  predicate KeyAligned(c: Config, s: State) {
    s.key >= 0 && s.key % c.size == 0
  }

  /** With non-negative frames, every tick keeps the key a non-negative
      multiple of the window size. */
  lemma {:induction false} TickKeepsKeyAligned(c: Config, s: State, frame: int, active: nat)
    requires KeyAligned(c, s) && frame >= 0
    ensures KeyAligned(c, Tick(c, s, frame, active).state)
  {
    var r := Tick(c, s, frame, active);
    var forward := s.previousFrame - frame <= 0;
    if frame % c.size == 0 {
      if forward {
      } else if s.key != 0 {
        MultipleStepsDown(s.key, c.size);
      }
    } else if s.changedKey && frame < s.key {
      MultipleStepsDown(s.key, c.size);
    }
  }

  /** The frame before a window boundary is the last frame of a window. */
  lemma {:induction false} PredecessorOffBoundary(f: int, n: int)
    requires n > 1 && f % n == 0
    ensures (f - 1) % n == n - 1
  {
    var q := f / n;
    var d := (f - 1) / n;
    assert f == q * n;
    assert f - 1 == d * n + (f - 1) % n;
    var k := q - d;
    assert k * n == (f - 1) % n + 1;
    if k <= 0 {
      MulMonotone(k, 0, n);
      assert false;
    }
    if k >= 2 {
      MulMonotone(2, k, n);
      assert false;
    }
    assert k == 1;
    assert k * n == n;
  }

  /** A positive multiple of `n`, less `n`, is a non-negative multiple of `n`. */
  lemma {:induction false} MultipleStepsDown(k: int, n: int)
    requires n > 0 && k > 0 && k % n == 0
    ensures k - n >= 0 && (k - n) % n == 0
  {
    var q := k / n;
    assert k == q * n;
    if q <= 0 {
      MulMonotone(q, 0, n);
      assert false;
    }
    MulMonotone(1, q, n);
    ModShift(k, -1, n);
    assert -1 * n + k == k - n;
  }

  /** A sequence of ticks, each with its own active-task count: the final
      state, all events in order, and whether any tick raised. An
      exception escaping a tick ends that tick only; the next tick starts
      from the state it left behind, as the event loop keeps delivering
      frames. */
  function Run(c: Config, s: State, frames: seq<int>, active: seq<nat>): Step
    requires |frames| == |active|
    decreases |frames|
  {
    if |frames| == 0 then Step(s, [], false)
    else
      var r := Tick(c, s, frames[0], active[0]);
      var rest := Run(c, r.state, frames[1..], active[1..]);
      Step(rest.state, r.events + rest.events, r.raised || rest.raised)
  }

  /** Along any run of non-negative frames the key stays a non-negative
      multiple of the window size. */
  lemma {:induction false} RunKeepsKeyAligned(c: Config, s: State, frames: seq<int>, active: seq<nat>)
    requires |frames| == |active|
    requires KeyAligned(c, s)
    requires forall i :: 0 <= i < |frames| ==> frames[i] >= 0
    ensures KeyAligned(c, Run(c, s, frames, active).state)
    decreases |frames|
  {
    if |frames| > 0 {
      TickKeepsKeyAligned(c, s, frames[0], active[0]);
      RunKeepsKeyAligned(c, Tick(c, s, frames[0], active[0]).state, frames[1..], active[1..]);
    }
  }

  /** Ticks that stay inside the current window (off the boundaries and
      not before the key) ask for nothing and leave key, end and slots
      alone; the last frame is remembered. */
  lemma {:induction false} InsideWindowRun(c: Config, s: State, frames: seq<int>, active: seq<nat>)
    requires |frames| == |active|
    requires forall i :: 0 <= i < |frames| ==> frames[i] % c.size != 0 && frames[i] >= s.key
    ensures var r := Run(c, s, frames, active);
            r.state.key == s.key && r.state.end == s.end && r.state.slots == s.slots &&
            !r.raised && Requests(r.events) == [] &&
            (|frames| > 0 ==> r.state.previousFrame == frames[|frames| - 1] && !r.state.changedKey)
    decreases |frames|
  {
    if |frames| > 0 {
      var t := Tick(c, s, frames[0], active[0]);
      NonBoundaryTick(c, s, frames[0], active[0]);
      InsideWindowRun(c, t.state, frames[1..], active[1..]);
      RequestsAppend(t.events, Run(c, t.state, frames[1..], active[1..]).events);
    }
  }

  /** The code applies the forward shift on backward crossings too. So a
      forward crossing followed by a backward crossing does not restore
      the slots: the old previous and current windows are gone, the old
      next window ends up as previous, and no window is current. */
  lemma ForwardThenBackwardLosesCurrent(c: Config, s: State, f1: int, f2: int, a1: nat, a2: nat)
    requires f1 % c.size == 0 && f1 >= s.previousFrame && s.end + 1 != c.totalFrames
    requires !Tick(c, s, f1, a1).raised
    requires f2 % c.size == 0 && f2 < f1 && f1 != 0
    ensures var s2 := Tick(c, Tick(c, s, f1, a1).state, f2, a2).state;
            s2.slots == Slots(s.slots.next, None, None)
  {
    var r1 := Tick(c, s, f1, a1);
    ForwardCrossing(c, s, f1, a1);
    assert r1.state.key == f1 && r1.state.previousFrame == f1;
    BackwardCrossing(c, r1.state, f2, a2);
  }

  /** A step back inside the old window right after a forward crossing
      moves the key back but does not undo the shift. The old next window
      stays current, so frame `f - 1` shows that window's last column: the
      geometries of frame `f + size - 1`. */
  lemma StepBackAfterCrossingKeepsShift(c: Config, s: State, f: int, a1: nat, a2: nat)
    requires c.size > 1 && f > 0
    requires f % c.size == 0 && f >= s.previousFrame && s.end + 1 != c.totalFrames
    requires !Tick(c, s, f, a1).raised
    requires s.slots.next.Some? && s.slots.next.value.width == c.size
    ensures var r := Tick(c, Tick(c, s, f, a1).state, f - 1, a2);
            r.state.key == f - c.size && r.state.previousFrame == f - 1 &&
            r.state.slots == Shift(s.slots) &&
            r.events == [FeaturesUpdated(ColumnAt(s.slots.next.value, c.size - 1).value)]
  {
    var t := Tick(c, s, f, a1).state;
    ForwardState(c, s, f, a1);
    TickDirection(c, s, f, a1);
    var s1 := Recorded(t, f - 1);
    PredecessorOffBoundary(f, c.size);
    var s2 := Realigned(c, s1, f - 1);
    assert s2 == s1.(key := WindowBefore(c, f), end := f - 1);
    assert EdgePause(c, t, f - 1) == [];
    assert FrameColumn(s2) == ColumnAt(s.slots.next.value, c.size - 1);
  }

  /** A seek to a frame before the current key, off a window boundary and
      with no key change pending, keeps the key. With windows of ten and
      key 10, frame 3 gives index -7 and shows column 3 of the window
      `[10, 19]`: the geometries of frame 13. */
  lemma SeekBeforeKeyShowsLaterFrame(m: Matrix, active: nat)
    requires m.width == 10
    ensures var s := State(10, 19, 15, 1, false, Slots(None, Some(m), None));
            var r := Tick(Config(10, 100, 100), s, 3, active);
            r.state.key == 10 &&
            r.events == [FeaturesUpdated(ColumnAt(m, 3).value)]
  {
  }

  /** The boundary scenario with windows of ten frames over a hundred
      frames, from key 0 at frame 0: ticks 1 to 9 ask for nothing and
      leave key, end and slots alone; tick 10 makes 10 the key, shifts the
      slots and asks for exactly the window `[20, 29]`. */
  lemma TenFrameScenario(s: State, active: seq<nat>)
    requires s.key == 0 && s.end == 9 && |active| == 10
    ensures var c := Config(10, 100, 100);
            var r9 := Run(c, s, [1, 2, 3, 4, 5, 6, 7, 8, 9], active[..9]);
            var r10 := Tick(c, r9.state, 10, active[9]);
            r9.state.key == 0 && r9.state.end == 9 && r9.state.slots == s.slots &&
            !r9.raised && Requests(r9.events) == [] &&
            r10.state.key == 10 && r10.state.slots == Shift(s.slots) &&
            Requests(r10.events) == [FetchRequest(20, 29, SetMatrix)]
  {
    var c := Config(10, 100, 100);
    var frames := [1, 2, 3, 4, 5, 6, 7, 8, 9];
    assert forall i :: 0 <= i < |frames| ==> frames[i] == i + 1;
    InsideWindowRun(c, s, frames, active[..9]);
    var r9 := Run(c, s, frames, active[..9]);
    ForwardCrossing(c, r9.state, 10, active[9]);
  }

  /** A tick at frame 0 coming from frame 0 counts as a forward boundary
      crossing: it shifts the slots and asks again for the window at key
      `size`. */
  lemma TickAtStartRefetches(c: Config, s: State, active: nat)
    requires s.previousFrame == 0 && s.end + 1 != c.totalFrames
    requires FetchAllowed(c, c.size) && c.size < c.stampCount
    ensures Tick(c, s, 0, active).state.slots == Shift(s.slots)
    ensures Requests(Tick(c, s, 0, active).events) == [FetchRequest(c.size, 2 * c.size - 1, SetMatrix)]
  {
    ForwardCrossing(c, s, 0, active);
  }

  /** `initiate_animation` installs only the current window and asks for
      the window at key `size`, with the `set_matrix` callback. */
  lemma InitiateRequestsSecondWindow(c: Config, s: State, m: Matrix, elapsed: real)
    requires elapsed != 0.0
    ensures var r := Initiate(c, s, m, elapsed);
            r.state == s.(slots := s.slots.(current := Some(m))) &&
            r.raised == Fetch(c, c.size).0 &&
            Requests(r.events) == Requested(c, c.size)
  {
    var r := Initiate(c, s, m, elapsed);
    var s1 := s.(slots := s.slots.(current := Some(m)));
    var f := Fetch(c, c.size);
    var rate := [FrameRateSet(FrameRate(c.size, elapsed))];
    SingleRequests(rate);
    RenderQuiet(s1);
    FetchPieces(c, c.size);
    RequestsAround(rate, f.1, Render(s1));
  }

  /** The rate `set_frame_rate` picks never exceeds the handler's rate,
      and at that rate a window lasts at least as long as its fetch took:
      the animation is slowed down just enough to be fed in time. */
  lemma FrameRateKeepsUp(size: WindowSize, elapsed: real)
    requires elapsed > 0.0
    ensures 0.0 < FrameRate(size, elapsed) <= Fps
    ensures FrameRate(size, elapsed) * elapsed <= size as real
    ensures FrameRate(size, elapsed) < Fps ==> FrameRate(size, elapsed) * elapsed == size as real
  {
  }

  /** A window installed by `set_matrix` becomes the current one at the
      next forward boundary crossing. */
  lemma InstalledWindowBecomesCurrent(c: Config, s: State, m: Matrix, elapsed: real, frame: int, active: nat)
    requires frame % c.size == 0 && frame >= s.previousFrame && s.end + 1 != c.totalFrames
    ensures var installed := Install(c, s, m, elapsed).state;
            Tick(c, installed, frame, active).state.slots.current == Some(m) &&
            Tick(c, installed, frame, active).state.slots.previous == s.slots.current
  {
    ForwardCrossing(c, Install(c, s, m, elapsed).state, frame, active);
  }

  /** The frame shown is column `previous_frame - key` of the current
      window: one geometry per object. A frame before the key gives a
      negative index, which numpy counts from the end of the window, so a
      later frame's column is shown. With no current window, or an index
      numpy rejects, nothing is shown. */
  lemma RenderShowsColumn(s: State)
    ensures s.slots.current.None? ==> Render(s) == []
    ensures s.slots.current.Some? && 0 <= s.previousFrame - s.key < s.slots.current.value.width ==>
              Render(s) == [FeaturesUpdated(
                seq(|s.slots.current.value.rows|,
                    i requires 0 <= i < |s.slots.current.value.rows| =>
                      s.slots.current.value.rows[i][s.previousFrame - s.key]))]
    ensures s.slots.current.Some? && -(s.slots.current.value.width as int) <= s.previousFrame - s.key < 0 ==>
              Render(s) == [FeaturesUpdated(
                seq(|s.slots.current.value.rows|,
                    i requires 0 <= i < |s.slots.current.value.rows| =>
                      s.slots.current.value.rows[i][s.slots.current.value.width + s.previousFrame - s.key]))]
    ensures s.slots.current.Some? && !(-(s.slots.current.value.width as int) <= s.previousFrame - s.key < s.slots.current.value.width) ==>
              Render(s) == []
  {
  }
}

=== FILE: spawned.dfy ===
/** The spawned matrix process (`create_matrix`). Unlike the worker it
    does not fail on a bad row: the fill loop stops at the first row whose
    slice does not fit, rows without trajectory met before that point are
    deleted from the matrix, and success is reported anyway. Results go to
    a queue as exactly three items: a status, then the matrix or the
    failure, then the log. */
module Spawned {
  import opened Common
  import opened Granularity
  import opened Timeline
  import opened WindowRows

  /** The index of the first row that fails to fill (a trajectory whose
      slice does not fit), or the row count when every row fills: the
      row at which the fill loop breaks. */
  function StopIndex(rows: seq<Row>, begin: int, size: nat): (k: nat)
    ensures k <= |rows|
    ensures forall i :: 0 <= i < k ==> RowFits(rows[i], begin, size)
    ensures k < |rows| ==> !RowFits(rows[k], begin, size)
  {
    if |rows| == 0 then 0
    else if !RowFits(rows[0], begin, size) then 0
    else 1 + StopIndex(rows[1..], begin, size)
  }

  /** Row `i` of the matrix once the fill loop has ended: filled if the
      loop reached and filled it, still all empty points otherwise. */
  function FilledRow(rows: seq<Row>, begin: int, size: nat, i: nat): seq<Geom>
    requires i < |rows|
  {
    if i < StopIndex(rows, begin, size) then WindowRow(rows[i], begin, size)
    else SentinelRow(size)
  }

  /** `rows_to_remove` after the loop has visited rows `0 .. n-1`: the
      indices of the visited rows without trajectory, in increasing order. */
  function Removed(rows: seq<Row>, n: nat): seq<nat>
    requires n <= |rows|
  {
    if n == 0 then []
    else Removed(rows, n - 1) + (if rows[n - 1].samples.None? then [n - 1] else [])
  }

  /** The rows that `np.delete` keeps among rows `0 .. n-1` of the filled
      matrix, in their original order. */
  function Kept(rows: seq<Row>, begin: int, size: nat, removed: seq<nat>, n: nat): seq<seq<Geom>>
    requires n <= |rows|
  {
    if n == 0 then []
    else Kept(rows, begin, size, removed, n - 1) +
         (if n - 1 in removed then [] else [FilledRow(rows, begin, size, n - 1)])
  }

  // ---- An independent, row-by-row reference for the final matrix ----

  /** Whether the loop has broken after one more row. */
  function Next(r: Row, begin: int, size: nat, stopped: bool): bool {
    stopped || !RowFits(r, begin, size)
  }

  /** What one row contributes to the final matrix: nothing for a visited
      row without trajectory, its window row for a visited row that fills,
      all empty points for the row that breaks the loop and every row after. */
  function Contribution(r: Row, begin: int, size: nat, stopped: bool): seq<seq<Geom>> {
    if stopped || !RowFits(r, begin, size) then [SentinelRow(size)]
    else if r.samples.None? then []
    else [WindowRow(r, begin, size)]
  }

  /** The final matrix of `create_matrix`, read row by row from the front. */
  function SpawnedRows(rows: seq<Row>, begin: int, size: nat, stopped: bool): seq<seq<Geom>>
    decreases |rows|
  {
    if |rows| == 0 then []
    else Contribution(rows[0], begin, size, stopped) +
         SpawnedRows(rows[1..], begin, size, Next(rows[0], begin, size, stopped))
  }

  /** Whether the loop has broken after all of `rows`. */
  function StoppedAfter(rows: seq<Row>, begin: int, size: nat, stopped: bool): bool
    decreases |rows|
  {
    if |rows| == 0 then stopped
    else StoppedAfter(rows[1..], begin, size, Next(rows[0], begin, size, stopped))
  }

  lemma {:induction false} SpawnedRowsSnoc(xs: seq<Row>, x: Row, begin: int, size: nat, stopped: bool)
    ensures SpawnedRows(xs + [x], begin, size, stopped)
            == SpawnedRows(xs, begin, size, stopped) +
               Contribution(x, begin, size, StoppedAfter(xs, begin, size, stopped))
    decreases |xs|
  {
    if |xs| == 0 {
      assert (xs + [x])[1..] == [];
    } else {
      assert (xs + [x])[1..] == xs[1..] + [x];
      SpawnedRowsSnoc(xs[1..], x, begin, size, Next(xs[0], begin, size, stopped));
    }
  }

  lemma {:induction false} StoppedStaysStopped(rows: seq<Row>, begin: int, size: nat)
    ensures StoppedAfter(rows, begin, size, true)
    decreases |rows|
  {
    if |rows| > 0 {
      StoppedStaysStopped(rows[1..], begin, size);
    }
  }

  /** The loop has broken after the first `n` rows exactly when the break
      row lies among them. */
  lemma {:induction false} StoppedAfterPrefix(rows: seq<Row>, begin: int, size: nat, n: nat)
    requires n <= |rows|
    ensures StoppedAfter(rows[..n], begin, size, false) <==> StopIndex(rows, begin, size) < n
    decreases n
  {
    if n > 0 {
      assert rows[..n][0] == rows[0];
      assert rows[..n][1..] == rows[1..][..n - 1];
      if !RowFits(rows[0], begin, size) {
        StoppedStaysStopped(rows[..n][1..], begin, size);
      } else {
        StoppedAfterPrefix(rows[1..], begin, size, n - 1);
      }
    }
  }

  /** `i` is to be removed exactly when the loop visited row `i` and found
      no trajectory. */
  lemma {:induction false} RemovedMembers(rows: seq<Row>, n: nat, i: int)
    requires n <= |rows|
    ensures i in Removed(rows, n) <==> 0 <= i < n && rows[i].samples.None?
    decreases n
  {
    if n > 0 {
      RemovedMembers(rows, n - 1, i);
    }
  }

  /** Row `m` contributes the same to the filled-then-deleted matrix as to
      the row-by-row reference. */
  lemma KeptRowIsContribution(rows: seq<Row>, begin: int, size: nat, removed: seq<nat>, m: nat)
    requires m < |rows| && removed == Removed(rows, StopIndex(rows, begin, size))
    ensures (if m in removed then [] else [FilledRow(rows, begin, size, m)])
            == Contribution(rows[m], begin, size, StoppedAfter(rows[..m], begin, size, false))
  {
    StoppedAfterPrefix(rows, begin, size, m);
    RemovedMembers(rows, StopIndex(rows, begin, size), m);
  }

  /** The filled-then-deleted matrix agrees with the row-by-row reference
      on every prefix of the rows. */
  lemma {:induction false} KeptIsSpawned(rows: seq<Row>, begin: int, size: nat, removed: seq<nat>, n: nat)
    requires n <= |rows| && removed == Removed(rows, StopIndex(rows, begin, size))
    ensures Kept(rows, begin, size, removed, n) == SpawnedRows(rows[..n], begin, size, false)
    decreases n
  {
    if n == 0 {
      assert rows[..0] == [];
    } else {
      var m := n - 1;
      KeptIsSpawned(rows, begin, size, removed, m);
      assert rows[..n] == rows[..m] + [rows[m]];
      SpawnedRowsSnoc(rows[..m], rows[m], begin, size, false);
      KeptRowIsContribution(rows, begin, size, removed, m);
    }
  }

  /** How many of rows `0 .. n-1` are not listed in `removed`. */
  function KeptCount(removed: seq<nat>, n: nat): nat {
    if n == 0 then 0 else KeptCount(removed, n - 1) + (if n - 1 in removed then 0 else 1)
  }

  /** The deletion keeps one row per unlisted index. */
  lemma {:induction false} KeptCounted(rows: seq<Row>, begin: int, size: nat, removed: seq<nat>, n: nat)
    requires n <= |rows|
    ensures |Kept(rows, begin, size, removed, n)| == KeptCount(removed, n)
    decreases n
  {
    if n > 0 {
      KeptCounted(rows, begin, size, removed, n - 1);
    }
  }

  /** Up to the break, the unlisted rows are the visited rows with a
      trajectory. */
  lemma {:induction false} KeptCountBeforeBreak(rows: seq<Row>, begin: int, size: nat, n: nat)
    requires n <= StopIndex(rows, begin, size)
    ensures KeptCount(Removed(rows, StopIndex(rows, begin, size)), n) == n - |Removed(rows, n)|
    decreases n
  {
    if n > 0 {
      KeptCountBeforeBreak(rows, begin, size, n - 1);
      RemovedMembers(rows, StopIndex(rows, begin, size), n - 1);
    }
  }

  /** From the break on, no row is listed. */
  lemma {:induction false} KeptCountAfterBreak(rows: seq<Row>, begin: int, size: nat, n: nat)
    requires StopIndex(rows, begin, size) <= n <= |rows|
    ensures KeptCount(Removed(rows, StopIndex(rows, begin, size)), n)
            == n - |Removed(rows, StopIndex(rows, begin, size))|
    decreases n
  {
    if n == StopIndex(rows, begin, size) {
      KeptCountBeforeBreak(rows, begin, size, StopIndex(rows, begin, size));
    } else {
      KeptCountAfterBreak(rows, begin, size, n - 1);
      RemovedMembers(rows, StopIndex(rows, begin, size), n - 1);
    }
  }

  /** The final matrix row count is the input row count less the removed
      rows. */
  lemma KeptLength(rows: seq<Row>, begin: int, size: nat, removed: seq<nat>)
    requires removed == Removed(rows, StopIndex(rows, begin, size))
    ensures |Kept(rows, begin, size, removed, |rows|)| == |rows| - |removed|
  {
    KeptCounted(rows, begin, size, removed, |rows|);
    KeptCountAfterBreak(rows, begin, size, |rows|);
  }

  /** Rows from the break row on are never checked for removal and stay
      all empty points; visited rows without trajectory are exactly the
      removed ones. */
  lemma {:induction false} BreakLeavesRest(rows: seq<Row>, begin: int, size: nat, i: nat)
    requires i < |rows|
    ensures i >= StopIndex(rows, begin, size) ==>
              i !in Removed(rows, StopIndex(rows, begin, size)) &&
              FilledRow(rows, begin, size, i) == SentinelRow(size)
    ensures i < StopIndex(rows, begin, size) ==>
              (i in Removed(rows, StopIndex(rows, begin, size)) <==> rows[i].samples.None?)
  {
    RemovedMembers(rows, StopIndex(rows, begin, size), i);
  }

  /** When every row has a trajectory whose slice fits, the spawned
      process keeps every row and produces the worker's matrix: row `i` is
      the window row of query row `i`. */
  lemma {:induction false} SpawnedAgreesWithWorker(rows: seq<Row>, begin: int, size: nat)
    requires forall i :: 0 <= i < |rows| ==> rows[i].samples.Some? && SliceFits(rows[i], begin, size)
    ensures |SpawnedRows(rows, begin, size, false)| == |rows|
    ensures forall i :: 0 <= i < |rows| ==> SpawnedRows(rows, begin, size, false)[i] == WindowRow(rows[i], begin, size)
    decreases |rows|
  {
    if |rows| > 0 {
      SpawnedAgreesWithWorker(rows[1..], begin, size);
      assert !Next(rows[0], begin, size, false);
      assert Contribution(rows[0], begin, size, false) == [WindowRow(rows[0], begin, size)];
      forall i | 1 <= i < |rows|
        ensures SpawnedRows(rows, begin, size, false)[i] == WindowRow(rows[i], begin, size)
      {
        assert rows[1..][i - 1] == rows[i];
      }
    }
  }

  /** A visited row without trajectory is dropped here, while the worker
      keeps it as a row of empty points: the two producers disagree on the
      row count whenever such a row precedes the break. */
  lemma SpawnedDropsEmptyRows(rows: seq<Row>, begin: int, size: nat, i: nat)
    requires i < StopIndex(rows, begin, size) && rows[i].samples.None?
    ensures |SpawnedRows(rows, begin, size, false)| < |rows|
  {
    var stop := StopIndex(rows, begin, size);
    KeptIsSpawned(rows, begin, size, Removed(rows, StopIndex(rows, begin, size)), |rows|);
    KeptLength(rows, begin, size, Removed(rows, StopIndex(rows, begin, size)));
    RemovedMembers(rows, stop, i);
    assert rows[..|rows|] == rows;
  }

  /** The fill loop of `create_matrix` on an all-empty matrix with one row
      per query row: rows are filled in order until the first row that
      does not fit, and the indices of visited rows without trajectory are
      collected. */
  method FillUntilBreak(m: array2<Geom>, rows: seq<Row>, begin: int) returns (rowsToRemove: seq<nat>)
    requires m.Length0 == |rows|
    requires forall k, j :: 0 <= k < m.Length0 && 0 <= j < m.Length1 ==> m[k, j] == EmptyPoint
    modifies m
    ensures rowsToRemove == Removed(rows, StopIndex(rows, begin, m.Length1))
    ensures forall k, j :: 0 <= k < m.Length0 && 0 <= j < m.Length1 ==>
              m[k, j] == FilledRow(rows, begin, m.Length1, k)[j]
  {
    ghost var stop := StopIndex(rows, begin, m.Length1);
    rowsToRemove := [];
    var i := 0;
    while i < |rows|
      invariant 0 <= i <= stop
      invariant rowsToRemove == Removed(rows, i)
      invariant forall k, j :: 0 <= k < m.Length0 && 0 <= j < m.Length1 ==>
                  m[k, j] == if k < i then WindowRow(rows[k], begin, m.Length1)[j] else EmptyPoint
    {
      if rows[i].samples.Some? {
        if !SliceFits(rows[i], begin, m.Length1) {
          break;
        }
        FillSlice(m, i, rows[i], begin);
      } else {
        rowsToRemove := rowsToRemove + [i];
      }
      i := i + 1;
    }
    assert i == stop;
  }

  /** `np.delete(matrix, rows_to_remove, axis=0)` on the filled matrix:
      the rows whose index is not listed, in their original order. */
  method DeleteRows(m: array2<Geom>, rows: seq<Row>, begin: int, rowsToRemove: seq<nat>)
    returns (kept: seq<seq<Geom>>)
    requires m.Length0 == |rows|
    requires forall k, j :: 0 <= k < m.Length0 && 0 <= j < m.Length1 ==>
               m[k, j] == FilledRow(rows, begin, m.Length1, k)[j]
    ensures kept == Kept(rows, begin, m.Length1, rowsToRemove, |rows|)
    ensures forall k :: 0 <= k < |kept| ==> |kept[k]| == m.Length1
  {
    kept := [];
    var n := 0;
    while n < |rows|
      invariant 0 <= n <= |rows|
      invariant kept == Kept(rows, begin, m.Length1, rowsToRemove, n)
      invariant forall k :: 0 <= k < |kept| ==> |kept[k]| == m.Length1
    {
      ghost var added := if n in rowsToRemove then [] else [FilledRow(rows, begin, m.Length1, n)];
      assert Kept(rows, begin, m.Length1, rowsToRemove, n + 1) == kept + added;
      if n !in rowsToRemove {
        var row := seq(m.Length1, j requires 0 <= j < m.Length1 reads m => m[n, j]);
        assert row == FilledRow(rows, begin, m.Length1, n);
        kept := kept + [row];
      }
      n := n + 1;
    }
  }

  /** The fill and delete phases of `create_matrix`: an all-empty
      `rows x size` array is filled row by row until the first row that
      does not fit, and the visited rows without trajectory are deleted. */
  method BuildMatrix(rows: seq<Row>, begin: int, size: nat) returns (matrix: Grid)
    ensures Rectangular(matrix) && matrix.width == size
    ensures matrix.rows == SpawnedRows(rows, begin, size, false)
    ensures |matrix.rows| == |rows| - |Removed(rows, StopIndex(rows, begin, size))|
  {
    var m := new Geom[|rows|, size]((i, j) => EmptyPoint);
    var rowsToRemove := FillUntilBreak(m, rows, begin);
    var kept := DeleteRows(m, rows, begin, rowsToRemove);
    KeptIsSpawned(rows, begin, size, Removed(rows, StopIndex(rows, begin, size)), |rows|);
    KeptLength(rows, begin, size, Removed(rows, StopIndex(rows, begin, size)));
    assert rows[..|rows|] == rows;
    matrix := Grid(size, kept);
  }

  /** What `create_matrix` raises before the fill when it fails: the span
      lookup, the connection, the unbound seconds-per-sample value, or
      the query. */
  datatype Failure = SpanLookupFailed | ConnectionFailed | TimeValueUnbound | QueryRaised

  /** The first failure of the steps before the fill, if any. */
  function PreparationFailure(beginFrame: int, endFrame: int, g: GranularityValue,
                              timestamps: seq<int>, db: DbOutcome): Option<Failure>
  {
    if QuerySpan(timestamps, beginFrame, endFrame).None? then Some(SpanLookupFailed)
    else if db.ConnectFailed? then Some(ConnectionFailed)
    else if TimeValue(g).None? then Some(TimeValueUnbound)
    else if db.QueryFailed? then Some(QueryRaised)
    else None
  }

  /** One item put on the result queue. */
  datatype QueueItem = StatusItem(code: int) | MatrixItem(matrix: Grid) | ErrorItem(failure: Failure) | LogsItem

  /** The three items `create_matrix` puts on the queue. */
  function Outcome(beginFrame: int, endFrame: int, size: nat, g: GranularityValue,
                   timestamps: seq<int>, db: DbOutcome): (items: seq<QueueItem>)
    ensures |items| == 3 && items[0].StatusItem? && items[2] == LogsItem
    ensures items[0].code == 0 <==> PreparationFailure(beginFrame, endFrame, g, timestamps, db).None?
    ensures items[0].code == 0 || items[0].code == 1
    ensures items[0].code == 0 ==> items[1] == MatrixItem(Grid(size, SpawnedRows(db.rows, beginFrame, size, false)))
    ensures items[0].code == 1 ==> items[1] == ErrorItem(PreparationFailure(beginFrame, endFrame, g, timestamps, db).value)
  {
    match PreparationFailure(beginFrame, endFrame, g, timestamps, db)
    case Some(f) => [StatusItem(1), ErrorItem(f), LogsItem]
    case None => [StatusItem(0), MatrixItem(Grid(size, SpawnedRows(db.rows, beginFrame, size, false))), LogsItem]
  }

  /** The multiprocessing queue: items in the order they were put. */
  class ResultQueue {
    var items: seq<QueueItem>

    constructor ()
      ensures items == []
    {
      items := [];
    }

    method Put(x: QueueItem)
      modifies this
      ensures items == old(items) + [x]
    {
      items := items + [x];
    }
  }

  /** `create_matrix`: exactly three items are appended to the queue and
      nothing else; on success they are `0`, the matrix and the log, even
      when the fill loop broke early. */
  method CreateMatrix(queue: ResultQueue, beginFrame: int, endFrame: int, size: nat,
                      g: GranularityValue, timestamps: seq<int>, db: DbOutcome)
    modifies queue
    ensures queue.items == old(queue.items) + Outcome(beginFrame, endFrame, size, g, timestamps, db)
  {
    var failure := PreparationFailure(beginFrame, endFrame, g, timestamps, db);
    if failure.Some? {
      queue.Put(StatusItem(1));
      queue.Put(ErrorItem(failure.value));
      queue.Put(LogsItem);
      return;
    }
    var matrix := BuildMatrix(db.rows, beginFrame, size);
    queue.Put(StatusItem(0));
    queue.Put(MatrixItem(matrix));
    queue.Put(LogsItem);
  }
}

=== FILE: tasks.dfy ===
/** The background tasks: a window fetch task (`Next_Time_Delta_thread`)
    and the view-creation tasks (`MoveTask`, `MoveGeomTask`, `MoveTTask`).
    `run` records its result or error message in fields and returns a
    flag; `finished` calls exactly one of the two callbacks, which the
    model returns as a value. What the database or query helper does is
    an input: either the value it returns or the exception it raises. */
module Tasks {
  import opened Common
  import opened Timeline
  import opened Granularity

  /** The exceptions the tasks tell apart. `text` is `str(e)`; a database
      error also carries its primary diagnostic message, which the driver
      leaves as `None` when the server sent none. */
  datatype PyException =
    | DatabaseError(text: string, primaryMessage: Option<string>)
    | ValueError(text: string)
    | OtherError(text: string)

  /** A call into code outside the model: it returns a value or raises. */
  datatype Attempt<+T> = Returned(value: T) | Raised(error: PyException)

  /** What `run` does with its result: the flag it returns, or an
      exception it lets escape. */
  datatype RunResult = Flag(ok: bool) | Escaped(error: PyException)

  // ---- Next_Time_Delta_thread ----

  /** `{'TgeomPoints_list': rows}`; the rows are opaque tokens. */
  datatype DeltaParams = DeltaParams(tgeomPoints: seq<nat>)

  /** The callback `finished` makes, with its argument. */
  datatype DeltaCallback = DeltaFinished(params: Option<DeltaParams>) | DeltaFailed(message: Option<string>)

  /** The fields `run` leaves behind. */
  datatype DeltaRecord = DeltaRecord(resultParams: Option<DeltaParams>, errorMsg: Option<string>)

  /** The effect of `run` on the record: rows stored on success, `str(e)`
      stored on any exception. */
  function DeltaRun(rec: DeltaRecord, fetched: Attempt<seq<nat>>): (r: (bool, DeltaRecord))
    ensures r.0 <==> fetched.Returned?
    ensures r.0 ==> r.1 == rec.(resultParams := Some(DeltaParams(fetched.value)))
    ensures !r.0 ==> r.1 == rec.(errorMsg := Some(fetched.error.text))
  {
    match fetched
    case Returned(rows) => (true, rec.(resultParams := Some(DeltaParams(rows))))
    case Raised(e) => (false, rec.(errorMsg := Some(e.text)))
  }

  /** The dispatch of `finished`: the success callback with the stored
      result exactly when the flag is set, otherwise the failure callback
      with the stored message. */
  function DeltaDispatch(rec: DeltaRecord, result: bool): DeltaCallback {
    if result then DeltaFinished(rec.resultParams) else DeltaFailed(rec.errorMsg)
  }

  /** From a fresh task, a run followed by `finished` on its flag calls the
      success callback with the fetched rows when the fetch returned, and
      the failure callback with the exception's text when it raised; never
      a callback with a missing argument. */
  lemma FreshDeltaRunDispatch(fetched: Attempt<seq<nat>>)
    ensures var r := DeltaRun(DeltaRecord(None, None), fetched);
            DeltaDispatch(r.1, r.0) ==
              match fetched
              case Returned(rows) => DeltaFinished(Some(DeltaParams(rows)))
              case Raised(e) => DeltaFailed(Some(e.text))
  {
  }

  /** `Next_Time_Delta_thread`. It keeps the granularity member itself,
      not a copy of its record, so a `set_time_step` made after the task
      is built changes the span its `run` asks for. */
  class NextTimeDeltaTask {
    const startDate: int
    const granularity: TimeGranularity
    const member: Member
    const beginFrame: int
    const endFrame: int
    var resultParams: Option<DeltaParams>
    var errorMsg: Option<string>

    function Record(): DeltaRecord
      reads this
    {
      DeltaRecord(resultParams, errorMsg)
    }

    constructor (startDate: int, granularity: TimeGranularity, member: Member, beginFrame: int, endFrame: int)
      ensures this.startDate == startDate && this.granularity == granularity && this.member == member
      ensures this.beginFrame == beginFrame && this.endFrame == endFrame
      ensures resultParams == None && errorMsg == None
    {
      this.startDate := startDate;
      this.granularity := granularity;
      this.member := member;
      this.beginFrame := beginFrame;
      this.endFrame := endFrame;
      resultParams := None;
      errorMsg := None;
    }

    /** `run`: asks the database for the span `[start + timedelta *
        begin, start + timedelta * end]`, with the member's frame duration
        as it stands when the task runs (returned as `span`, the call
        itself being outside the model), and records the outcome. */
    method Run(fetched: Attempt<seq<nat>>) returns (ok: bool, span: (int, int))
      modifies this
      ensures span == TaskTimeSpan(startDate, granularity.Value(member).timedelta, beginFrame, endFrame)
      ensures (ok, Record()) == DeltaRun(old(Record()), fetched)
    {
      span := TaskTimeSpan(startDate, granularity.Value(member).timedelta, beginFrame, endFrame);
      match fetched
      case Returned(rows) =>
        resultParams := Some(DeltaParams(rows));
        ok := true;
      case Raised(e) =>
        errorMsg := Some(e.text);
        ok := false;
    }

    /** `finished`: exactly one callback, chosen by the flag. */
    method Finished(result: bool) returns (call: DeltaCallback)
      ensures call == DeltaDispatch(Record(), result)
      ensures call.DeltaFinished? <==> result
    {
      if result {
        call := DeltaFinished(resultParams);
      } else {
        call := DeltaFailed(errorMsg);
      }
    }
  }

  /** A `set_time_step` made between building a fetch task and running it
      reaches the task: the span is computed with the new step count. */
  method StepChangeBeforeRun(task: NextTimeDeltaTask, steps: int, fetched: Attempt<seq<nat>>)
    returns (span: (int, int))
    requires task.granularity.Valid()
    modifies task, task.granularity
    ensures span == TaskTimeSpan(task.startDate, if task.member == SecondMember then steps else 60 * steps,
                                 task.beginFrame, task.endFrame)
  {
    var cls := task.granularity.SetTimeStep(steps);
    var ok;
    ok, span := task.Run(fetched);
  }

  // ---- MoveTask, MoveGeomTask, MoveTTask ----

  /** Which subclass a task is; the temporal one carries its id column. */
  datatype TaskKind = GeomKind | TemporalKind(colId: string)

  /** What `create_geom_view` returns. */
  datatype GeomView = GeomView(viewName: string, colNames: seq<string>, srids: seq<int>, geomTypes: seq<string>)

  /** What `create_temporal_view` returns. */
  datatype TemporalView = TemporalView(viewType: string, viewName: string, srid: int)

  /** The `result_params` dictionaries of the two subclasses. */
  datatype MoveParams =
    | GeomParams(viewName: string, colNames: seq<string>, srids: seq<int>, geomTypes: seq<string>)
    | TemporalParams(viewType: string, colId: string, viewName: string, srid: int)

  /** The callback `MoveTask.finished` makes: on success with the
      database handle, the query object and the result; on failure with
      the message. Handles are opaque tokens. */
  datatype MoveCallback =
    | MoveFinished(db: nat, query: nat, params: Option<MoveParams>)
    | MoveFailed(message: Option<string>)

  /** `MoveGeomTask.run`: database errors and value errors are caught and
      their text stored; any other exception escapes. */
  function GeomRun(params: Option<MoveParams>, msg: Option<string>, created: Attempt<GeomView>)
    : (r: (RunResult, Option<MoveParams>, Option<string>))
    ensures r.0 == Flag(true) <==> created.Returned?
    ensures created.Returned? ==> r.1 == Some(GeomParams(created.value.viewName, created.value.colNames,
                                                          created.value.srids, created.value.geomTypes)) && r.2 == msg
    ensures created.Raised? && !created.error.OtherError? ==>
              r == (Flag(false), params, Some(created.error.text))
    ensures created.Raised? && created.error.OtherError? ==> r == (Escaped(created.error), params, msg)
  {
    match created
    case Returned(v) => (Flag(true), Some(GeomParams(v.viewName, v.colNames, v.srids, v.geomTypes)), msg)
    case Raised(e) =>
      if e.DatabaseError? || e.ValueError? then (Flag(false), params, Some(e.text))
      else (Escaped(e), params, msg)
  }

  /** `MoveTTask.run`: only database errors are caught, and what is stored
      is their primary diagnostic message as it is, `None` included, so the
      failure callback can receive `None`; any other exception escapes. */
  function TemporalRun(colId: string, params: Option<MoveParams>, msg: Option<string>, created: Attempt<TemporalView>)
    : (r: (RunResult, Option<MoveParams>, Option<string>))
    ensures r.0 == Flag(true) <==> created.Returned?
    ensures created.Returned? ==> r.1 == Some(TemporalParams(created.value.viewType, colId,
                                                              created.value.viewName, created.value.srid)) && r.2 == msg
    ensures created.Raised? && created.error.DatabaseError? ==>
              r == (Flag(false), params, created.error.primaryMessage)
    ensures created.Raised? && !created.error.DatabaseError? ==> r == (Escaped(created.error), params, msg)
  {
    match created
    case Returned(v) => (Flag(true), Some(TemporalParams(v.viewType, colId, v.viewName, v.srid)), msg)
    case Raised(e) =>
      if e.DatabaseError? then (Flag(false), params, e.primaryMessage)
      else (Escaped(e), params, msg)
  }

  /** A value error is caught by the geometry task but escapes the
      temporal one. */
  lemma ValueErrorHandledOnlyByGeomTask(params: Option<MoveParams>, msg: Option<string>, colId: string, text: string)
    ensures GeomRun(params, msg, Raised(ValueError(text))).0 == Flag(false)
    ensures TemporalRun(colId, params, msg, Raised(ValueError(text))).0.Escaped?
  {
  }

  /** A failed geometry run always leaves a message for the failure
      callback; a temporal run that caught a database error without a
      primary message leaves `None` there. */
  lemma OnlyTemporalFailureCanLackMessage(params: Option<MoveParams>, msg: Option<string>, created: Attempt<GeomView>,
                                          colId: string, text: string)
    ensures GeomRun(params, msg, created).0 == Flag(false) ==> GeomRun(params, msg, created).2.Some?
    ensures TemporalRun(colId, params, msg, Raised(DatabaseError(text, None))) == (Flag(false), params, None)
  {
  }

  class MoveTask {
    const kind: TaskKind
    const query: nat
    const db: nat
    var resultParams: Option<MoveParams>
    var errorMsg: Option<string>

    /** A `MoveGeomTask`. */
    constructor Geom(query: nat, db: nat)
      ensures kind == GeomKind && this.query == query && this.db == db
      ensures resultParams == None && errorMsg == None
    {
      kind := GeomKind;
      this.query := query;
      this.db := db;
      resultParams := None;
      errorMsg := None;
    }

    /** A `MoveTTask` for the id column `colId`. */
    constructor Temporal(query: nat, db: nat, colId: string)
      ensures kind == TemporalKind(colId) && this.query == query && this.db == db
      ensures resultParams == None && errorMsg == None
    {
      kind := TemporalKind(colId);
      this.query := query;
      this.db := db;
      resultParams := None;
      errorMsg := None;
    }

    /** `MoveTask.finished`: exactly one callback, chosen by the flag. */
    method Finished(result: bool) returns (call: MoveCallback)
      ensures result ==> call == MoveFinished(db, query, resultParams)
      ensures !result ==> call == MoveFailed(errorMsg)
    {
      if result {
        call := MoveFinished(db, query, resultParams);
      } else {
        call := MoveFailed(errorMsg);
      }
    }

    /** `MoveGeomTask.run`. */
    method RunGeom(created: Attempt<GeomView>) returns (r: RunResult)
      requires kind == GeomKind
      modifies this
      ensures (r, resultParams, errorMsg) == GeomRun(old(resultParams), old(errorMsg), created)
    {
      match created
      case Returned(v) =>
        resultParams := Some(GeomParams(v.viewName, v.colNames, v.srids, v.geomTypes));
        r := Flag(true);
      case Raised(e) =>
        if e.DatabaseError? {
          errorMsg := Some(e.text);
          r := Flag(false);
        } else if e.ValueError? {
          errorMsg := Some(e.text);
          r := Flag(false);
        } else {
          r := Escaped(e);
        }
    }

    /** `MoveTTask.run`. */
    method RunTemporal(created: Attempt<TemporalView>) returns (r: RunResult)
      requires kind.TemporalKind?
      modifies this
      ensures (r, resultParams, errorMsg) == TemporalRun(kind.colId, old(resultParams), old(errorMsg), created)
    {
      match created
      case Returned(v) =>
        resultParams := Some(TemporalParams(v.viewType, kind.colId, v.viewName, v.srid));
        r := Flag(true);
      case Raised(e) =>
        if e.DatabaseError? {
          errorMsg := e.primaryMessage;
          r := Flag(false);
        } else {
          r := Escaped(e);
        }
    }
  }
}

=== FILE: timeline.dfy ===
/** The frame-to-timestamp index. Timestamps and durations are whole
    seconds; frame `i` is the instant `start + i * timedelta`. */
module Timeline {
  import opened Common

  /** The number of frame-aligned instants from `start` up to and
      including `end`: `(end - start) // timedelta + 1`. With a positive
      divisor Dafny's `/` is Python's floor division. */
  function RawFrames(start: int, end: int, timedelta: int): int
    requires timedelta > 0
  {
    (end - start) / timedelta + 1
  }

  /** The frame count the handler settles on: the raw count plus its
      remainder modulo the window size. */
  function TotalFrames(start: int, end: int, timedelta: int, size: int): int
    requires timedelta > 0 && size > 0
  {
    var raw := RawFrames(start, end, timedelta);
    raw + raw % size
  }

  /** `[start + i * timedelta for i in range(total)]`; an empty range for
      a non-positive total. */
  function Timestamps(start: int, timedelta: int, total: int): (ts: seq<int>)
    ensures |ts| == (if total > 0 then total else 0)
    ensures forall i :: 0 <= i < |ts| ==> ts[i] == start + i * timedelta
  {
    seq(if total > 0 then total else 0, i => start + i * timedelta)
  }

  /** The task's time span for a frame range: the start date advanced by
      `begin` and by `end` frame durations. */
  function TaskTimeSpan(startDate: int, timedelta: int, begin: int, end: int): (r: (int, int))
  {
    (startDate + timedelta * begin, startDate + timedelta * end)
  }

  /** `timestamps[begin]` and `timestamps[end]` under Python's indexing
      rule, or None when either lookup raises. */
  function QuerySpan(ts: seq<int>, begin: int, end: int): (r: Option<(int, int)>)
    ensures r.Some? <==> PyIndex(|ts|, begin).Some? && PyIndex(|ts|, end).Some?
  {
    match (PyIndex(|ts|, begin), PyIndex(|ts|, end))
    case (Some(b), Some(e)) => Some((ts[b], ts[e]))
    case _ => None
  }

  lemma {:induction false} MulMonotone(a: int, b: int, c: int)
    requires a <= b && c >= 0
    ensures a * c <= b * c
  {
    assert b * c - a * c == (b - a) * c;
  }

  lemma {:induction false} MulStrict(a: int, b: int, c: int)
    requires a < b && c > 0
    ensures a * c < b * c
  {
    assert b * c - a * c == (b - a) * c;
  }

  /** The time span grows with the frame range: a range that does not run
      backwards gives a span that does not run backwards. */
  lemma {:induction false} TaskTimeSpanOrdered(startDate: int, timedelta: int, begin: int, end: int)
    requires timedelta > 0
    ensures begin <= end <==> TaskTimeSpan(startDate, timedelta, begin, end).0 <= TaskTimeSpan(startDate, timedelta, begin, end).1
  {
    if begin <= end {
      MulMonotone(begin, end, timedelta);
      assert timedelta * begin <= timedelta * end;
    } else {
      MulStrict(end, begin, timedelta);
      assert timedelta * end < timedelta * begin;
    }
  }

  /** Timestamps strictly increase with the frame number. */
  lemma {:induction false} TimestampsIncreasing(start: int, timedelta: int, total: int, i: int, j: int)
    requires timedelta > 0
    requires 0 <= i < j < |Timestamps(start, timedelta, total)|
    ensures Timestamps(start, timedelta, total)[i] < Timestamps(start, timedelta, total)[j]
  {
    MulStrict(i, j, timedelta);
  }

  /** Frames start at the first instant, and the last raw frame is the
      last frame-aligned instant not after `end`: the timeline covers the
      whole data range and stops within one frame of it. */
  lemma {:induction false} TimelineCoversRange(start: int, end: int, timedelta: int, size: int)
    requires timedelta > 0 && size > 0 && start <= end
    ensures var raw := RawFrames(start, end, timedelta);
            var ts := Timestamps(start, timedelta, TotalFrames(start, end, timedelta, size));
            1 <= raw <= |ts| < raw + size &&
            ts[0] == start &&
            ts[raw - 1] <= end < ts[raw - 1] + timedelta
  {
    var d := end - start;
    var q := d / timedelta;
    assert d == q * timedelta + d % timedelta;
    assert 0 <= d % timedelta < timedelta;
    assert q >= 0 by {
      if q < 0 {
        MulMonotone(q, -1, timedelta);
        assert false;
      }
    }
    var raw := RawFrames(start, end, timedelta);
    assert raw == q + 1;
    var total := TotalFrames(start, end, timedelta, size);
    assert total == raw + raw % size;
    assert 0 <= raw % size < size;
    var ts := Timestamps(start, timedelta, total);
    assert ts[raw - 1] == start + q * timedelta;
  }

  /** The padded frame count is a multiple of the window size exactly
      when twice the raw remainder is; so the count is not always a whole
      number of windows. */
  lemma {:induction false} TotalFramesAlignedIff(start: int, end: int, timedelta: int, size: int)
    requires timedelta > 0 && size > 0
    ensures var raw := RawFrames(start, end, timedelta);
            TotalFrames(start, end, timedelta, size) % size == 0 <==> (2 * (raw % size)) % size == 0
  {
    var raw := RawFrames(start, end, timedelta);
    var q, r := raw / size, raw % size;
    assert raw == q * size + r;
    var total := raw + r;
    assert total == q * size + 2 * r;
    ModShift(2 * r, q, size);
  }

  lemma {:induction false} ModShift(x: int, q: int, size: int)
    requires size > 0
    ensures (q * size + x) % size == x % size
  {
    var a := (q * size + x) / size;
    var b := x / size;
    assert q * size + x == a * size + (q * size + x) % size;
    assert x == b * size + x % size;
    var d := (q * size + x) % size - x % size;
    assert d == (b + q - a) * size;
    assert -size < d < size;
    if b + q - a > 0 {
      MulMonotone(1, b + q - a, size);
    } else if b + q - a < 0 {
      MulMonotone(b + q - a, -1, size);
    }
  }

  /** An instance: five seconds of data (five raw frames) at one-second
      frames with windows of four frames are padded to six frames, not to
      the eight that two whole windows would need. */
  lemma FiveFramesPadToSix()
    ensures RawFrames(0, 4, 1) == 5
    ensures TotalFrames(0, 4, 1, 4) == 6
    ensures TotalFrames(0, 4, 1, 4) % 4 != 0
  {
  }

  /** Over the generated timeline, the worker's span lookup is the task's
      time span, for every in-range window, and is ordered. */
  lemma {:induction false} QuerySpanOnTimeline(start: int, timedelta: int, total: int, begin: int, end: int)
    requires timedelta > 0
    requires 0 <= begin <= end < total
    ensures QuerySpan(Timestamps(start, timedelta, total), begin, end)
            == Some(TaskTimeSpan(start, timedelta, begin, end))
    ensures TaskTimeSpan(start, timedelta, begin, end).0 <= TaskTimeSpan(start, timedelta, begin, end).1
  {
    var ts := Timestamps(start, timedelta, total);
    assert ts[begin] == start + begin * timedelta;
    assert ts[end] == start + end * timedelta;
    TaskTimeSpanOrdered(start, timedelta, begin, end);
  }

  /** A window whose last frame is the frame count itself (one past the
      last timestamp) cannot be looked up. */
  lemma QuerySpanPastEnd(start: int, timedelta: int, total: int, begin: int)
    requires total > 0
    ensures QuerySpan(Timestamps(start, timedelta, total), begin, total).None?
  {
  }
}

=== FILE: window_rows.dfy ===
/** One row of a window matrix: how an object's resampled trajectory is
    laid onto the window's frame columns. The database reports, per object,
    the absolute frame numbers of its first and last sample and the
    samples themselves (or nothing when the object has no trajectory in
    the window); the row is `size` cells of the empty point with the
    samples written over columns `start - begin .. end - begin`. */
module WindowRows {
  import opened Common

  /** One result row of the window query: first and last sample frame and
      the samples, or None when the object has no trajectory here. */
  datatype Row = Row(startIndex: int, endIndex: int, samples: Option<seq<Geom>>)

  /** A row of `size` empty points, as `np.full` lays it down. */
  function SentinelRow(size: nat): (row: seq<Geom>)
    ensures |row| == size
    ensures forall j :: 0 <= j < size ==> row[j] == EmptyPoint
  {
    seq(size, j => EmptyPoint)
  }

  /** The slice assignment `row[s : s + |values|] = values`. */
  function PlaceSamples(row: seq<Geom>, s: nat, values: seq<Geom>): (r: seq<Geom>)
    requires s + |values| <= |row|
    ensures |r| == |row|
    ensures forall j :: s <= j < s + |values| ==> r[j] == values[j - s]
    ensures forall j :: 0 <= j < |row| && !(s <= j < s + |values|) ==> r[j] == row[j]
  {
    seq(|row|, j requires 0 <= j < |row| => if s <= j < s + |values| then values[j - s] else row[j])
  }

  /** A row with samples whose slice `[start-begin, end-begin]` lies inside
      the window and has exactly one cell per sample: the only case the
      model lets the slice assignment succeed. */
  predicate SliceFits(r: Row, begin: int, size: nat)
    requires r.samples.Some?
  {
    var s := r.startIndex - begin;
    var e := r.endIndex - begin;
    0 <= s <= e < size && |r.samples.value| == e - s + 1
  }

  /** What the database step of a window fetch yields: the connection
      fails, the query fails, or the query returns its rows. */
  datatype DbOutcome = ConnectFailed | QueryFailed | Rows(rows: seq<Row>)

  /** A row that fills without error: no trajectory, or a fitting slice. */
  predicate RowFits(r: Row, begin: int, size: nat) {
    r.samples.None? || SliceFits(r, begin, size)
  }

  /** The finished matrix row for one query row. */
  function WindowRow(r: Row, begin: int, size: nat): (row: seq<Geom>)
    requires RowFits(r, begin, size)
    ensures |row| == size
    ensures r.samples.None? ==> forall j :: 0 <= j < size ==> row[j] == EmptyPoint
    ensures r.samples.Some? ==> forall j :: 0 <= j < size ==>
              row[j] == if r.startIndex - begin <= j <= r.endIndex - begin
                        then r.samples.value[j - (r.startIndex - begin)]
                        else EmptyPoint
  {
    match r.samples
    case None => SentinelRow(size)
    case Some(values) => PlaceSamples(SentinelRow(size), r.startIndex - begin, values)
  }

  /** Every sample of a fitting row lands on the column of its own frame:
      sample `k` belongs to absolute frame `start + k` and sits in column
      `start + k - begin`. */
  lemma SampleAtItsFrame(r: Row, begin: int, size: nat, k: nat)
    requires r.samples.Some? && SliceFits(r, begin, size)
    requires k < |r.samples.value|
    ensures 0 <= r.startIndex + k - begin < size
    ensures WindowRow(r, begin, size)[r.startIndex + k - begin] == r.samples.value[k]
  {
  }

  /** The slice assignment `m[i, start-begin : end-begin+1] = values` for
      a fitting row: row `i` becomes its window row, all other rows stay. */
  method FillSlice(m: array2<Geom>, i: nat, r: Row, beginFrame: int)
    requires i < m.Length0
    requires r.samples.Some? && SliceFits(r, beginFrame, m.Length1)
    requires forall j :: 0 <= j < m.Length1 ==> m[i, j] == EmptyPoint
    modifies m
    ensures forall k, j :: 0 <= k < m.Length0 && 0 <= j < m.Length1 ==>
              m[k, j] == if k == i then WindowRow(r, beginFrame, m.Length1)[j] else old(m[k, j])
  {
    var values := r.samples.value;
    var s := r.startIndex - beginFrame;
    var e := r.endIndex - beginFrame;
    var c := s;
    while c <= e
      invariant s <= c <= e + 1
      invariant forall j :: 0 <= j < m.Length1 ==>
                  m[i, j] == if s <= j < c then values[j - s] else EmptyPoint
      invariant forall k, j :: 0 <= k < m.Length0 && k != i && 0 <= j < m.Length1 ==> m[k, j] == old(m[k, j])
    {
      m[i, c] := values[c - s];
      c := c + 1;
    }
  }

}

=== FILE: worker.dfy ===
/** The fetch worker (`worker_fnc`): for one partition of object ids and
    one window, it builds the id list of the query, looks up the window's
    time span, picks the seconds-per-sample value, and fills a
    `rows x time_delta_size` matrix of empty points with each row's
    samples. It either returns status 0 with the whole matrix or status 1
    with no matrix; what the database returns is an input. */
module Worker {
  import opened Common
  import opened Granularity
  import opened Timeline
  import opened WindowRows

  /** One id as it appears in the query: wrapped in single quotes. */
  function QuoteId(id: string): string {
    "'" + id + "'"
  }

  /** The quoted ids joined by ", ", in input order. */
  function IdsString(ids: seq<string>): string
  {
    if |ids| == 0 then ""
    else if |ids| == 1 then QuoteId(ids[0])
    else QuoteId(ids[0]) + ", " + IdsString(ids[1..])
  }

  /** Joining two non-empty id lists is joining their strings with ", ":
      the id string lists every id once, in input order. */
  lemma {:induction false} IdsStringAppend(a: seq<string>, b: seq<string>)
    requires |a| > 0 && |b| > 0
    ensures IdsString(a + b) == IdsString(a) + ", " + IdsString(b)
  {
    if |a| == 1 {
      assert (a + b)[1..] == b;
    } else {
      assert (a + b)[1..] == a[1..] + b;
      IdsStringAppend(a[1..], b);
    }
  }

  /** The total length of a list of strings. */
  function TotalLength(ids: seq<string>): nat {
    if |ids| == 0 then 0 else |ids[0]| + TotalLength(ids[1..])
  }

  /** The id string has two quotes per id and two separator characters
      between consecutive ids, and nothing else beyond the ids themselves. */
  lemma {:induction false} IdsStringLength(ids: seq<string>)
    requires |ids| > 0
    ensures |IdsString(ids)| == TotalLength(ids) + 2 * |ids| + 2 * (|ids| - 1)
  {
    if |ids| > 1 {
      IdsStringLength(ids[1..]);
    }
  }

  /** Everything the worker needs before it fills the matrix: a span
      lookup that does not raise, a known granularity name, and query
      rows from the database. */
  predicate Prepared(beginFrame: int, endFrame: int, g: GranularityValue,
                     timestamps: seq<int>, db: DbOutcome)
  {
    QuerySpan(timestamps, beginFrame, endFrame).Some? && TimeValue(g).Some? && db.Rows?
  }

  /** The worker succeeds exactly when it is prepared and every row fills. */
  predicate WorkerSucceeds(beginFrame: int, endFrame: int, size: nat, g: GranularityValue,
                           timestamps: seq<int>, db: DbOutcome)
  {
    Prepared(beginFrame, endFrame, g, timestamps, db) &&
    forall i :: 0 <= i < |db.rows| ==> RowFits(db.rows[i], beginFrame, size)
  }

  /** `worker_fnc`. Status 0 comes with a matrix of one row per query row
      and `size` columns, row `i` being the window row of query row `i`
      (sentinel-only for a row without trajectory); status 1 comes with no
      matrix, and then some step failed: there is never a partially
      filled success. */
  method WorkerFnc(beginFrame: int, endFrame: int, size: nat, g: GranularityValue,
                   timestamps: seq<int>, db: DbOutcome)
    returns (status: int, matrix: array2?<Geom>)
    ensures status == 0 || status == 1
    ensures status == 0 <==> WorkerSucceeds(beginFrame, endFrame, size, g, timestamps, db)
    ensures status == 1 ==> matrix == null
    ensures status == 0 ==>
              matrix != null && matrix.Length0 == |db.rows| && matrix.Length1 == size &&
              forall i, j :: 0 <= i < matrix.Length0 && 0 <= j < size ==>
                matrix[i, j] == WindowRow(db.rows[i], beginFrame, size)[j]
  {
    var span := QuerySpan(timestamps, beginFrame, endFrame);
    if span.None? {
      return 1, null;
    }
    if db.ConnectFailed? {
      return 1, null;
    }
    var timeValue := TimeValue(g);
    if timeValue.None? {
      return 1, null;
    }
    if !db.Rows? {
      return 1, null;
    }
    var rows := db.rows;
    var m := new Geom[|rows|, size]((i, j) => EmptyPoint);
    var i := 0;
    while i < |rows|
      invariant 0 <= i <= |rows|
      invariant forall k :: 0 <= k < i ==> RowFits(rows[k], beginFrame, size)
      invariant forall k, j :: 0 <= k < |rows| && 0 <= j < size ==>
                  m[k, j] == if k < i then WindowRow(rows[k], beginFrame, size)[j] else EmptyPoint
    {
      if rows[i].samples.Some? {
        if !SliceFits(rows[i], beginFrame, size) {
          return 1, null;
        }
        FillSlice(m, i, rows[i], beginFrame);
      }
      i := i + 1;
    }
    return 0, m;
  }

  /** A row without trajectory keeps its place and is all empty points;
      a row whose slice does not fit makes the whole worker fail. */
  lemma WorkerRowCases(beginFrame: int, endFrame: int, size: nat, g: GranularityValue,
                       timestamps: seq<int>, rows: seq<Row>, i: nat)
    requires i < |rows|
    ensures rows[i].samples.None? ==> forall j :: 0 <= j < size ==>
              WindowRow(rows[i], beginFrame, size)[j] == EmptyPoint
    ensures rows[i].samples.Some? && !SliceFits(rows[i], beginFrame, size) ==>
              !WorkerSucceeds(beginFrame, endFrame, size, g, timestamps, Rows(rows))
  {
  }
}
